=== FILE: README.md ===
# Article extractor and downloader, modelled in Dafny

The system is a small web service, `index.js`. Given a URL, it fetches the page and extracts an article from it. Given an article, it renders the article as a DOCX, PDF or HTML file.

This project models that logic as pure Dafny functions over an abstract parsed page, and proves what the service promises:

- **Title.** The title is the first truthy item in a four-way `||` chain, trimmed only after the choice, with a placeholder when nothing is truthy. Each getter reads the first match in document order only.
- **Content scan.** Phase 1 stops at the first candidate container that holds a paragraph. Its noise removal permanently changes the document the later selectors and the fallback see. It removes nothing but the noise below the container's matches, and every other node, text nodes included, keeps its content, depth and place. `.find()` returns, position by position, exactly the wanted elements that have a container match as a proper ancestor. The fallback reads every `p` element left in the document, each occurrence once, in document order. The kept paragraphs are exactly those whose trimmed text is longer than 40 UTF-16 code units, in document order.
- **Content string.** Each kept paragraph is followed by a blank line. The renderers' `split('\n\n')` reads that string back, provided no kept text itself holds a blank line; a paragraph whose text does is split in two.
- **Escaping.** `escapeHtml` leaves no markup character, and decoding its entities gives the input back, so it is injective.
- **Renderers.**
  - The DOCX renderer keeps exactly the split parts that are not blank, trimmed.
  - The PDF body has one `<p>` per split part, each escaped.
  - The HTML export is not escaped, as written.
- **Endpoints.**
  - Both endpoints reject falsy request fields with the exact error texts.
  - The download format is dispatched exactly, and any unknown format becomes HTML.
  - An extracted article sent back as a DOCX request yields exactly its paragraphs, provided none of them holds a blank line.

Files:

| file | module | what it holds |
|---|---|---|
| `results.dfy` | `Results` | `Option` (for `undefined`), `Result` (for thrown errors), JavaScript truthiness of a string |
| `jstext.dfy` | `JsText` | `trim` with the ECMAScript whitespace set, UTF-16 `length`, substring and class-token tests, decimal rendering of `Date.now()` |
| `seqs.dfy` | `Seqs` | picking a subsequence by a mask |
| `walks.dfy` | `Walks` | a generic loop that threads a state and may stop early, and the proof that it stops at the first position whose test holds |
| `dom.dfy` | `Dom` | the page as a tree, the selectors used, `$(sel)`, `.find()`, `.find().remove()`, `.text()` |
| `paragraphs.dfy` | `Paragraphs` | the content string, `split('\n\n')`, the trim-and-length filter |
| `escaping.dfy` | `Escaping` | `escapeHtml` and its inverse |
| `extractor.dfy` | `Extractor` | `extractArticle`: title, the two-phase scan, the status filter, the error texts |
| `export.dfy` | `Export` | the DOCX, PDF and HTML renderers, reduced to the paragraphs and heading they write |
| `routes.dfy` | `Routes` | `POST /api/extract-article` and `POST /api/download-article` |

## Model

| member | source | states |
|---|---|---|
| `JsText.Trim` | index.js:48 | The trimmed string starts and ends with non-whitespace and is no longer than its input. |
| `JsText.TrimIsMiddle` | index.js:70 | `trim()` removes only ECMAScript whitespace, and only from the two ends: the result sits inside the input with nothing but whitespace around it. |
| `JsText.TrimEmptyIff` | index.js:102 | A string trims to the empty string exactly when it is all whitespace, so `if (para.trim())` skips exactly the blank parts. |
| `JsText.JsLength` | index.js:71 | `length` counts UTF-16 code units: at least one and at most two per character. |
| `JsText.JsLengthConcat` | index.js:71 | The length of a concatenation is the sum of the lengths. |
| `JsText.JsLengthAppend` | index.js:71 | The empty string has length 0, and appending a character adds 2 when it lies outside the Basic Multilingual Plane and 1 otherwise, which fixes `length` on every string. |
| `JsText.DecimalRoundTrip` | index.js:108 | The decimal digits of the time stamp in a file name read back as the same number. |
| `Dom.Select` | index.js:64 | `$(selector)` yields only elements of the document that match the selector. |
| `Dom.SelectFindsAll` | index.js:79 | `$(selector)` misses no element of the document that matches, so `$('p')` yields every paragraph. |
| `Dom.SelectInOrder` | index.js:79 | `$(selector)` is the document's element list with exactly the matching positions kept, in document order. |
| `Dom.FirstMatch` | index.js:43-45 | The first match is absent exactly when no element matches; otherwise it is the matching element with the least position in document order. |
| `Dom.SelectEmptyIff` | index.js:65 | `element.length > 0` holds exactly when some element of the document matches the selector. |
| `Dom.Prune` | index.js:66 | After `.find(noise).remove()`, no noise element is left below any match of the container selector. |
| `Dom.PruneWithoutNoise` | index.js:66 | When the find returns nothing, the removal leaves the document exactly as it was. |
| `Dom.PruneKeepsTheRest` | index.js:66 | The outline of the page after the removal is the original outline less the lines a keep mask drops. The outline lists every node, text nodes included, in document order, as its tag and attributes or its text, with its depth. So every kept node keeps its content, its depth and its parent, and no text is lost or moved. |
| `Dom.PruneDropsOnlyFound` | index.js:66 | Every node the keep mask drops, text nodes included, is an element the find returned or lies below one, so nothing outside the noise under the container's matches is lost. |
| `Dom.PruneWithoutMatch` | index.js:65-66 | The removal changes nothing when the container selector matches no element. |
| `Dom.Find` | index.js:66-67 | `.find()` returns only elements that match one of the wanted selectors. |
| `Dom.FindOnlyBelowContext` | index.js:66-67 | Every element `$(container).find(wanted)` returns lies strictly below some match of the container selector, never at a match itself. |
| `Dom.FindAllBelowContext` | index.js:66-67 | `$(container).find(wanted)` is the document's element list with exactly those positions kept whose element is wanted and has a proper ancestor matching the container. Ancestry is read off positions: an element's subtree is the span of the pre-order list that starts at it (`Dom.SubtreeInPlace`). Each occurrence of a repeated element is kept or dropped on its own. |
| `Dom.BelowMaskIsAncestry` | index.js:66-67 | The flag the search carries down the tree ("below a container match") is set at a position exactly when some proper ancestor there matches the container. |
| `Dom.FindInsideIsAll` | index.js:67 | Below a match of the container, `.find('p')` returns every `p` element, in document order, and nothing else. |
| `Dom.FindInDocumentOrder` | index.js:67 | `.find('p')` returns the document's element list with exactly the wanted elements below a container match kept, position by position, in document order. |
| `Extractor.OrChain` | index.js:43-46 | The `||` chain yields an operand such that every operand before it is falsy, and it is truthy unless it is the last operand. |
| `Extractor.FirstHeadingText` | index.js:43 | `$('h1').first().text()` is the text of the `h1` with the least position in document order, or the empty string when there is none. |
| `Extractor.FirstContentAttr` | index.js:44-45 | `$(meta).attr('content')` is the `content` attribute of the first matching element in document order, absent when nothing matches or that element lacks it. A later match is not consulted. |
| `Extractor.TitleCandidates` | index.js:43-46 | The four operands are, in source order, the first `h1` text, the `og:title` content, the `meta name="title"` content, and the `title` text. The last is the data of every text node below every `title` element, in document order. |
| `Extractor.ResolveTitle` | index.js:42-48 | The title is the trimmed first truthy candidate among the four that `Extractor.TitleCandidates` names. It is "Tanpa Judul" when no candidate is truthy. It is always trimmed. |
| `Extractor.BlankHeadingGivesEmptyTitle` | index.js:43-48 | A whitespace-only first `h1` wins the chain, because the test comes before the trim, so the title is empty and not the placeholder. |
| `Extractor.ScanFrom` | index.js:63-76 | The scan either finds nothing or stops at one selector with a non-empty list of paragraphs. Those are the `p` elements below that selector's matches in the document as changed by the removals. |
| `Extractor.ScanStopsAtFirst` | index.js:63-76 | Phase 1 stops at the first selector that matches and has a paragraph below its matches after the noise removal, whether or not any paragraph is long enough. Every earlier selector that matched has had its removal applied. When no selector stops, all eight removals have been applied. |
| `Walks.WalkStopsFirst` | index.js:63-76 | A state-threading loop with an early exit stops at the first position whose test holds on the state it reaches, or else runs to the end. |
| `Extractor.ExtractContent` | index.js:63-83 | The fallback runs exactly when phase 1 produced no content. Without it, the paragraphs scanned are those phase 1 stopped on. With it, they are the `p` elements of the document as phase 1 left it, position by position: every occurrence once, in document order, and nothing else. Every paragraph scanned is a `p` element. |
| `Extractor.ContentInDocumentOrder` | index.js:67-82 | The paragraphs scanned, from either phase, are elements of the final document in document order. |
| `Extractor.ContentIsKeptParagraphs` | index.js:69-82 | The content lists the trimmed texts of exactly those scanned paragraphs whose trimmed text is longer than 40 code units, all of them and in order, each followed by `\n\n`. A paragraph's text is the data of the text nodes below it, joined in document order. |
| `Dom.TextOfIsTextNodes` | index.js:70 | `.text()` of a node is the data of every text node it is or holds, joined in document order. |
| `Dom.TextOfAllIsTextNodes` | index.js:46 | `.text()` of a selection is the data of every text node in or below it, joined in document order. |
| `Extractor.ExtractArticle` | index.js:21-92 | The article is returned exactly when the fetch succeeded, the status is at least 200 and below 500 (`Extractor.AcceptsStatus`, the `validateStatus` of index.js:35), and the content is not empty. Each failure is told apart. On success the URL is the one given and the content ends with a blank line. |
| `Extractor.ErrorMessage` | index.js:85-90 | Every error message starts "Gagal mengekstrak artikel: ". An empty content gives the inner text "Gagal mengekstrak konten artikel", and a fetch error keeps its own message. |
| `Paragraphs.Split` | index.js:101 | `split('\n\n')` returns parts that join back to the input, none holding the separator, and none but the last ending in a newline. |
| `Paragraphs.SplitUnique` | index.js:101 | Only one list of parts has those properties, so `Split` is the left-to-right split and joining then splitting gives the parts back. |
| `Paragraphs.ContentRoundTrip` | index.js:71 | When no kept text holds a blank line or ends in a newline, splitting the content string gives exactly the kept texts plus one empty part. |
| `Paragraphs.KeepTrimmedIsFilter` | index.js:70-71 | The filter keeps the trimmed form of exactly those texts whose trimmed length exceeds the bound, all of them and in order. |
| `Paragraphs.KeepTrimmedOfKept` | index.js:102-103 | Texts that are already trimmed and long enough pass the filter unchanged. |
| `Escaping.EscapeHtml` | index.js:128-133 | The escaped text holds no `<`, `>`, `"` or `'`, and every `&` in it opens one of the five entities. |
| `Escaping.EscapeIsPerChar` | index.js:128-133 | The five global replacements, `&` first, equal escaping each character on its own. No pass rewrites what an earlier one wrote. |
| `Escaping.UnescapeEscape` | index.js:128-133 | Decoding the five entities recovers the original text exactly, including text that already held an entity. |
| `Escaping.EscapeInjective` | index.js:135-138 | Distinct titles or paragraphs escape to distinct markup. |
| `Export.FormatOf` | index.js:215-217 | "docx" gives DOCX and "pdf" gives PDF. Every other string gives HTML. |
| `Export.FileName` | index.js:108 | The file name starts with "article_" and ends with a dot and the format's extension, with the clock reading's decimal digits between. |
| `Export.FileNameDistinct` | index.js:108 | Files of one format written at different clock readings get different names. |
| `Export.DocxParagraphs` | index.js:101-106 | Every DOCX paragraph is trimmed and non-empty, and there are no more paragraphs than split parts. |
| `Export.DocxKeepsNonBlankParts` | index.js:101-106 | The paragraphs of the file `createDocx` writes are the trimmed split parts of the content that are not all whitespace, every one of them and in order. |
| `Export.DocxOfContent` | index.js:101-106 | Content built from trimmed, non-empty paragraphs without blank lines comes out of the DOCX renderer as exactly those paragraphs. |
| `Export.CreateDocx` | index.js:95-108 | The DOCX file opens with the title as a bold 18-point paragraph and is named after the clock reading. Its paragraphs are `Export.DocxParagraphs` of the content, which `Export.DocxKeepsNonBlankParts` characterises. |
| `Export.CreatePdf` | index.js:135-139 | The PDF heading holds no markup character and decodes back to the title. The body parses as one paragraph per split part of the content, blank parts included; the n-th is the n-th part trimmed and escaped, and decodes back to that trimmed part. |
| `Export.PdfBodyParagraphs` | index.js:136-139 | The PDF body (`Export.PdfBody`) holds exactly one paragraph per split part, blank parts included. The n-th paragraph is the n-th part trimmed and escaped, and it decodes back to the trimmed part. |
| `Export.ParseParagraphMarkup` | index.js:138-139 | `<p>…</p>` markup joined with nothing in between reads back as the texts it was built from, when none of them holds `<`. |
| `Export.HtmlBodyParagraphs` | index.js:186 | The HTML export reads back as the trimmed split parts only when the content holds no `<`, because its texts are not escaped. |
| `Export.CreateHtml` | index.js:180-193 | The HTML file is named after the clock reading, with the title as its heading as given and one `<p>` per trimmed split part, unescaped. |
| `Routes.ExtractRoute` | index.js:197-206 | The request is answered 400 "URL tidak boleh kosong" exactly when the URL is falsy. Otherwise it returns the article exactly when extraction succeeds, and then it is the article extraction produced. Exactly when extraction fails it answers 500 with the extraction error's message, which carries the extraction prefix. |
| `Routes.Render` | index.js:214-217 | The renderer run matches the format, and the file name carries that format's extension. The file is built from the title and content given: for DOCX the title run and the DOCX paragraphs of the content, for PDF a heading decoding to the title and the PDF body of the content, for HTML the title and the trimmed parts' markup. |
| `Routes.DownloadRoute` | index.js:209-225 | The request is answered 400 "Data tidak lengkap" exactly when a field is falsy, and then no renderer runs. Otherwise a renderer failure is answered 500 and anything else with the file. The file is DOCX for "docx", PDF for "pdf" and HTML for anything else, rendered from the request's title and content. A PDF failure is reported with the prefix "Gagal membuat PDF: ", other failures with the bare message. |
| `Routes.ExtractedContentToDocx` | index.js:71-106 | The content of an extraction, sent back with a non-empty title as a DOCX request, yields a document titled with that title whose paragraphs are exactly the kept paragraph texts in order, provided none of them holds a blank line. An empty content is refused with "Data tidak lengkap". |
| `Routes.BlankHeadingBlocksDownload` | index.js:43-212 | When the page's first `h1` is only whitespace, the title the extractor reports is empty, and the download endpoint refuses it whatever the content and format. |

## Left out

- The HTTP fetch is left out: axios, its headers, timeout, redirect limit and decompression. It becomes a parameter, `FetchOutcome`: the status and the already-parsed page, or the client's error message.
- HTML parsing by cheerio is left out. A page is given as a tree of elements and text nodes. Comments, CDATA, entity decoding and the parser's error recovery are not modelled.
- Only the selector forms the extractor uses are modelled: tag, `[attr*="v"]`, `.class` and `tag[attr="v"]`.
- Selector groups are modelled only as the noise list.
- Dom.Find: cheerio's `.find()` also searches below a matched element that an earlier removal detached from the document. The model searches only the tree as it stands after the removal. The two differ only when a container match is, or lies inside, a removed noise element.
- File I/O is left out: the `temp` directory, paths, write streams, `res.download` and the three-second `setTimeout` unlink. A file is modelled as its name and its rendered contents.
- The officegen and puppeteer internals are left out. A DOCX file is its title run and paragraph texts. A PDF is its heading and the body markup handed to the browser.
- The fixed page templates and stylesheets of the PDF and HTML pages are left out.
- `Date.now()` is a parameter, `now`.
- Renderer failures are a parameter, `failure`, carrying the message the library threw. What can make them fail is not modelled.
- Extractor.ErrorMessage: a rejected status is reported as "Request failed with status code N", the HTTP client's wording. That wording belongs to the library, not to `index.js`.
- Request bodies whose fields are not strings (numbers, objects) are left out: a field is a string or absent.
- Express routing, CORS headers, static files, `GET /api/test`, `GET /` and the console logging are left out.
- Export.CreateHtml: no escaping property is claimed, because the source embeds the title and paragraphs raw. `HtmlBodyParagraphs` states the read-back only for content without `<`.

=== FILE: dom.dfy ===
/** An abstract parsed HTML document and the handful of queries the extractor
    runs on it: `$(selector)` over the whole document, `.find()` below a
    selection, `.remove()` of what a find returned, and `.text()`. HTML parsing
    itself is not modelled: a document is already a tree. */
module Dom {
  import opened Results
  import opened JsText
  import opened Seqs

  /** A node of the parsed page: an element with its tag name (lower case, as
      the parser produces it), its attributes and its children, or a text node. */
  datatype Node =
    | Element(tag: string, attrs: map<string, string>, children: seq<Node>)
    | Text(data: string)

  /** The top-level nodes of a page, in source order. */
  type Document = seq<Node>

  /** `$(el).attr(name)`; `None` is `undefined`. */
  function Attr(n: Node, name: string): (v: Option<string>)
    ensures v.Some? <==> n.Element? && name in n.attrs
  {
    if n.Element? && name in n.attrs then Some(n.attrs[name]) else None
  }

  /** The simple CSS selectors the extractor uses. */
  datatype Selector =
    | Tag(name: string)                                // `article`, `p`, ...
    | AttrContains(attr: string, needle: string)       // `[class*="content"]`
    | HasClass(token: string)                          // `.post-content`
    | TagWithAttr(tag: string, attr: string, value: string)  // `meta[name="title"]`

  predicate Matches(sel: Selector, n: Node) {
    && n.Element?
    && match sel
       case Tag(name) => n.tag == name
       case AttrContains(a, needle) =>
         a in n.attrs && needle != "" && Contains(n.attrs[a], needle)
       case HasClass(tok) => "class" in n.attrs && HasToken(n.attrs["class"], tok)
       case TagWithAttr(t, a, v) => n.tag == t && a in n.attrs && n.attrs[a] == v
  }

  /** A comma-separated selector group such as `script, style, nav`. */
  predicate MatchesAny(group: seq<Selector>, n: Node) {
    exists i | 0 <= i < |group| :: Matches(group[i], n)
  }

  /** Every element of the forest in document order (pre-order). */
  function Elements(nodes: seq<Node>): (r: seq<Node>)
    ensures forall k :: 0 <= k < |r| ==> r[k].Element?
    decreases nodes
  {
    if nodes == [] then [] else ElementsOf(nodes[0]) + Elements(nodes[1..])
  }

  function ElementsOf(n: Node): (r: seq<Node>)
    ensures forall k :: 0 <= k < |r| ==> r[k].Element?
    ensures n.Element? ==> r != [] && r[0] == n
    decreases n
  {
    match n
    case Text(_) => []
    case Element(_, _, kids) => [n] + Elements(kids)
  }

  function MatchMask(es: seq<Node>, sel: Selector): (m: seq<bool>)
    ensures |m| == |es|
  {
    seq(|es|, i requires 0 <= i < |es| => Matches(sel, es[i]))
  }

  /** `$(selector)`: every element of the document the selector matches, in
      document order. */
  function Select(doc: Document, sel: Selector): (r: seq<Node>)
    ensures forall k :: 0 <= k < |r| ==> Matches(sel, r[k]) && r[k] in Elements(doc)
  {
    var es := Elements(doc);
    Pick(es, MatchMask(es, sel))
  }

  /** `$(selector)` misses no element of the document that matches. */
  lemma SelectFindsAll(doc: Document, sel: Selector)
    ensures forall e :: e in Elements(doc) && Matches(sel, e) ==> e in Select(doc, sel)
  {
    var es := Elements(doc);
    var m := MatchMask(es, sel);
    forall e | e in es && Matches(sel, e) ensures e in Pick(es, m) {
      var i :| 0 <= i < |es| && es[i] == e;
      PickKeeps(es, m, i);
    }
  }

  /** `$(selector)` comes back empty exactly when no element of the document
      matches the selector. */
  lemma SelectEmptyIff(doc: Document, sel: Selector)
    ensures Select(doc, sel) == [] <==> forall e :: e in Elements(doc) ==> !Matches(sel, e)
  {
    var es := Elements(doc);
    var m := MatchMask(es, sel);
    if Select(doc, sel) == [] {
      forall e | e in es ensures !Matches(sel, e) {
        var i :| 0 <= i < |es| && es[i] == e;
        if m[i] {
          PickKeeps(es, m, i);
        }
      }
    } else {
      assert Select(doc, sel)[0] in es;
    }
  }

  /** `$(selector)` keeps each matching element at its own position in the
      document's element list, in document order, and no other. */
  lemma SelectInOrder(doc: Document, sel: Selector) returns (m: seq<bool>)
    ensures |m| == |Elements(doc)| && Pick(Elements(doc), m) == Select(doc, sel)
    ensures forall i :: 0 <= i < |m| ==> (m[i] <==> Matches(sel, Elements(doc)[i]))
  {
    m := MatchMask(Elements(doc), sel);
  }

  /** Element `i` is the first in document order that `sel` matches. */
  predicate FirstAt(doc: Document, sel: Selector, i: int) {
    && 0 <= i < |Elements(doc)|
    && Matches(sel, Elements(doc)[i])
    && forall j :: 0 <= j < i ==> !Matches(sel, Elements(doc)[j])
  }

  /** No element of the document matches `sel`. */
  predicate NoMatch(doc: Document, sel: Selector) {
    forall i :: 0 <= i < |Elements(doc)| ==> !Matches(sel, Elements(doc)[i])
  }

  /** `$(sel).first()`, or `$(sel)` read through a getter that looks at the
      first match only: the earliest matching element in document order. */
  function FirstMatch(doc: Document, sel: Selector): (r: Option<Node>)
    ensures r.None? <==> NoMatch(doc, sel)
    ensures forall i :: FirstAt(doc, sel, i) ==> r == Some(Elements(doc)[i])
  {
    SelectStartsAtFirst(doc, sel);
    var ms := Select(doc, sel);
    if ms == [] then None else Some(ms[0])
  }

  lemma SelectStartsAtFirst(doc: Document, sel: Selector)
    ensures Select(doc, sel) == [] <==> NoMatch(doc, sel)
    ensures forall i :: FirstAt(doc, sel, i) ==> Select(doc, sel) != [] && Select(doc, sel)[0] == Elements(doc)[i]
  {
    var es := Elements(doc);
    var m := MatchMask(es, sel);
    SelectEmptyIff(doc, sel);
    if !NoMatch(doc, sel) {
      var i :| 0 <= i < |es| && Matches(sel, es[i]);
      assert es[i] in es;
    }
    forall i | FirstAt(doc, sel, i) ensures Select(doc, sel) != [] && Select(doc, sel)[0] == es[i] {
      PickFirst(es, m, i);
    }
  }

  /** The elements matching `wants` that have a proper ancestor matching `ctx`
      (or lie anywhere below the forest's parent when `inside` holds), in
      document order: `$(ctx).find(wants)`. */
  function Find(nodes: seq<Node>, ctx: Selector, wants: seq<Selector>, inside: bool): (r: seq<Node>)
    ensures forall k :: 0 <= k < |r| ==> MatchesAny(wants, r[k])
    decreases nodes
  {
    if nodes == [] then [] else FindIn(nodes[0], ctx, wants, inside) + Find(nodes[1..], ctx, wants, inside)
  }

  function FindIn(n: Node, ctx: Selector, wants: seq<Selector>, inside: bool): (r: seq<Node>)
    ensures forall k :: 0 <= k < |r| ==> MatchesAny(wants, r[k])
    decreases n
  {
    match n
    case Text(_) => []
    case Element(_, _, kids) =>
      (if inside && MatchesAny(wants, n) then [n] else [])
      + Find(kids, ctx, wants, inside || Matches(ctx, n))
  }

  /** What `$(ctx).find(noise).remove()` leaves: every element matching the
      `noise` group that has a proper ancestor matching `ctx` is cut out of the
      tree together with everything below it. */
  function Prune(nodes: seq<Node>, ctx: Selector, noise: seq<Selector>, inside: bool): (r: seq<Node>)
    ensures Find(r, ctx, noise, inside) == []
    decreases nodes
  {
    if nodes == [] then []
    else
      var head := PruneIn(nodes[0], ctx, noise, inside);
      var tail := Prune(nodes[1..], ctx, noise, inside);
      FindConcat(head, tail, ctx, noise, inside);
      head + tail
  }

  function PruneIn(n: Node, ctx: Selector, noise: seq<Selector>, inside: bool): (r: seq<Node>)
    ensures Find(r, ctx, noise, inside) == []
    decreases n
  {
    match n
    case Text(_) => [n]
    case Element(tag, attrs, kids) =>
      if inside && MatchesAny(noise, n) then []
      else
        var kept := Element(tag, attrs, Prune(kids, ctx, noise, inside || Matches(ctx, n)));
        assert MatchesAny(noise, kept) == MatchesAny(noise, n) by {
          assert forall s :: Matches(s, kept) == Matches(s, n);
        }
        assert [kept][1..] == [];
        [kept]
  }

  lemma {:induction false} FindConcat(a: seq<Node>, b: seq<Node>, ctx: Selector, wants: seq<Selector>, inside: bool)
    ensures Find(a + b, ctx, wants, inside) == Find(a, ctx, wants, inside) + Find(b, ctx, wants, inside)
  {
    if a != [] {
      assert (a + b)[1..] == a[1..] + b;
      FindConcat(a[1..], b, ctx, wants, inside);
    } else {
      assert a + b == b;
    }
  }

  /** Which elements of the forest have a proper ancestor matching `ctx`, in
      document order; with `inside` set, the forest's parent already counts as
      one, so every element does. */
  function BelowMask(nodes: seq<Node>, ctx: Selector, inside: bool): (m: seq<bool>)
    ensures |m| == |Elements(nodes)|
    decreases nodes
  {
    if nodes == [] then [] else BelowMaskAt(nodes[0], ctx, inside) + BelowMask(nodes[1..], ctx, inside)
  }

  function BelowMaskAt(n: Node, ctx: Selector, inside: bool): (m: seq<bool>)
    ensures |m| == |ElementsOf(n)|
    decreases n
  {
    match n
    case Text(_) => []
    case Element(_, _, kids) => [inside] + BelowMask(kids, ctx, inside || Matches(ctx, n))
  }

  /** The result of `find` is the document's element list with exactly the
      wanted elements below a match of the context kept, in document order: the
      mask is the witness, and it is set at an element's own position, so two
      equal elements are told apart. */
  lemma {:induction false} FindInDocumentOrder(nodes: seq<Node>, ctx: Selector, wants: seq<Selector>, inside: bool)
    returns (m: seq<bool>)
    ensures |m| == |Elements(nodes)| && Pick(Elements(nodes), m) == Find(nodes, ctx, wants, inside)
    ensures forall i :: 0 <= i < |m| ==>
      (m[i] <==> BelowMask(nodes, ctx, inside)[i] && MatchesAny(wants, Elements(nodes)[i]))
    decreases nodes
  {
    if nodes == [] {
      m := [];
    } else {
      var a, b := ElementsOf(nodes[0]), Elements(nodes[1..]);
      var m0 := FindInOrderAt(nodes[0], ctx, wants, inside);
      var m1 := FindInDocumentOrder(nodes[1..], ctx, wants, inside);
      PickConcat(a, m0, b, m1);
      m := m0 + m1;
      var es, bm := Elements(nodes), BelowMask(nodes, ctx, inside);
      assert es == a + b;
      assert bm == BelowMaskAt(nodes[0], ctx, inside) + BelowMask(nodes[1..], ctx, inside);
      forall i | 0 <= i < |m| ensures m[i] <==> bm[i] && MatchesAny(wants, es[i]) {
        if i >= |a| {
          assert m[i] == m1[i - |a|] && es[i] == b[i - |a|];
        }
      }
    }
  }

  lemma {:induction false} FindInOrderAt(n: Node, ctx: Selector, wants: seq<Selector>, inside: bool)
    returns (m: seq<bool>)
    ensures |m| == |ElementsOf(n)| && Pick(ElementsOf(n), m) == FindIn(n, ctx, wants, inside)
    ensures forall i :: 0 <= i < |m| ==>
      (m[i] <==> BelowMaskAt(n, ctx, inside)[i] && MatchesAny(wants, ElementsOf(n)[i]))
    decreases n
  {
    match n
    case Text(_) =>
      m := [];
    case Element(_, _, kids) =>
      var mk := FindInDocumentOrder(kids, ctx, wants, inside || Matches(ctx, n));
      PickConcat([n], [inside && MatchesAny(wants, n)], Elements(kids), mk);
      m := [inside && MatchesAny(wants, n)] + mk;
      forall i | 1 <= i < |m|
        ensures m[i] <==> BelowMaskAt(n, ctx, inside)[i] && MatchesAny(wants, ElementsOf(n)[i])
      {
        assert m[i] == mk[i - 1] && ElementsOf(n)[i] == Elements(kids)[i - 1];
      }
  }

  function AnyMask(es: seq<Node>, wants: seq<Selector>): (m: seq<bool>)
    ensures |m| == |es| && forall i :: 0 <= i < |es| ==> (m[i] <==> MatchesAny(wants, es[i]))
  {
    seq(|es|, i requires 0 <= i < |es| => MatchesAny(wants, es[i]))
  }

  /** Below a match of the context, `.find()` returns every wanted element, in
      document order, and nothing else. */
  lemma {:induction false} FindInsideIsAll(nodes: seq<Node>, ctx: Selector, wants: seq<Selector>)
    ensures Find(nodes, ctx, wants, true) == Pick(Elements(nodes), AnyMask(Elements(nodes), wants))
    decreases nodes
  {
    if nodes != [] {
      var a, b := ElementsOf(nodes[0]), Elements(nodes[1..]);
      FindInsideIsAllAt(nodes[0], ctx, wants);
      FindInsideIsAll(nodes[1..], ctx, wants);
      assert AnyMask(a + b, wants) == AnyMask(a, wants) + AnyMask(b, wants);
      PickConcat(a, AnyMask(a, wants), b, AnyMask(b, wants));
    }
  }

  lemma {:induction false} FindInsideIsAllAt(n: Node, ctx: Selector, wants: seq<Selector>)
    ensures FindIn(n, ctx, wants, true) == Pick(ElementsOf(n), AnyMask(ElementsOf(n), wants))
    decreases n
  {
    match n
    case Text(_) =>
    case Element(_, _, kids) =>
      var es := Elements(kids);
      FindInsideIsAll(kids, ctx, wants);
      assert AnyMask([n] + es, wants) == [MatchesAny(wants, n)] + AnyMask(es, wants);
      PickConcat([n], [MatchesAny(wants, n)], es, AnyMask(es, wants));
  }

  /** Every element `$(ctx).find(wants)` returns lies strictly below some
      match of `ctx`: `.find()` searches descendants, never the match itself. */
  lemma FindOnlyBelowContext(nodes: seq<Node>, ctx: Selector, wants: seq<Selector>, x: Node)
    requires x in Find(nodes, ctx, wants, false)
    ensures exists y :: y in Elements(nodes) && Matches(ctx, y) && x in Elements(y.children)
  {
    FindBelow(nodes, ctx, wants, false, x);
  }

  /** `$(ctx).find(wants)` returns, in document order, exactly the wanted
      elements that have a proper ancestor matching `ctx`, ancestry read off
      the positions of the pre-order element list: element `j` is a proper
      ancestor of element `i` when `i` falls in the span `j`'s subtree occupies
      (see `SubtreeInPlace`). Each occurrence of a repeated element is kept or
      dropped on its own. */
  lemma FindAllBelowContext(nodes: seq<Node>, ctx: Selector, wants: seq<Selector>) returns (m: seq<bool>)
    ensures |m| == |Elements(nodes)| && Pick(Elements(nodes), m) == Find(nodes, ctx, wants, false)
    ensures forall i :: 0 <= i < |m| ==>
      (m[i] <==> MatchesAny(wants, Elements(nodes)[i])
                 && AncestorMatches(Elements(nodes), ctx, i))
  {
    m := FindInDocumentOrder(nodes, ctx, wants, false);
    forall i | 0 <= i < |m| ensures BelowMask(nodes, ctx, false)[i] <==> AncestorMatches(Elements(nodes), ctx, i) {
      BelowMaskIsAncestry(nodes, ctx, false, i);
    }
  }

  /** Every wanted element strictly below a match of `ctx` is returned by
      `$(ctx).find(wants)`. */
  lemma FindReachesBelowContext(nodes: seq<Node>, ctx: Selector, wants: seq<Selector>, y: Node, x: Node)
    requires y in Elements(nodes) && Matches(ctx, y) && x in Elements(y.children) && MatchesAny(wants, x)
    ensures x in Find(nodes, ctx, wants, false)
  {
    FindReaches(nodes, ctx, wants, false, y, x);
  }

  /** In a pre-order element list, element `j` is a proper ancestor of element
      `i`: `i` comes after `j` and inside the span of `j`'s subtree. */
  predicate Encloses(es: seq<Node>, j: int, i: int) {
    0 <= j < i < |es| && i < j + |ElementsOf(es[j])|
  }

  /** Each element's subtree occupies a contiguous span of the pre-order
      element list, starting at the element itself. */
  lemma {:induction false} SubtreeInPlace(nodes: seq<Node>, j: nat)
    requires j < |Elements(nodes)|
    ensures j + |ElementsOf(Elements(nodes)[j])| <= |Elements(nodes)|
    ensures Elements(nodes)[j..j + |ElementsOf(Elements(nodes)[j])|] == ElementsOf(Elements(nodes)[j])
    decreases nodes
  {
    var a, b := ElementsOf(nodes[0]), Elements(nodes[1..]);
    assert Elements(nodes) == a + b;
    if j < |a| {
      SubtreeInPlaceAt(nodes[0], j);
      SliceOfPrefix(a, b, j, j + |ElementsOf(a[j])|);
    } else {
      var k := j - |a|;
      SubtreeInPlace(nodes[1..], k);
      SliceOfSuffix(a, b, k, k + |ElementsOf(b[k])|);
      assert Elements(nodes)[j] == b[k];
    }
  }

  lemma {:induction false} SubtreeInPlaceAt(n: Node, j: nat)
    requires j < |ElementsOf(n)|
    ensures j + |ElementsOf(ElementsOf(n)[j])| <= |ElementsOf(n)|
    ensures ElementsOf(n)[j..j + |ElementsOf(ElementsOf(n)[j])|] == ElementsOf(ElementsOf(n)[j])
    decreases n
  {
    var a := ElementsOf(n);
    if j > 0 {
      var ek := Elements(n.children);
      assert a == [n] + ek;
      SubtreeInPlace(n.children, j - 1);
      SliceOfSuffix([n], ek, j - 1, j - 1 + |ElementsOf(ek[j - 1])|);
    } else {
      assert a[0..|a|] == a;
    }
  }

  /** Some proper ancestor of element `i` of the pre-order list `es` matches
      `ctx`. */
  ghost predicate AncestorMatches(es: seq<Node>, ctx: Selector, i: int) {
    exists j :: Encloses(es, j, i) && Matches(ctx, es[j])
  }

  /** The recursive below-a-match mask agrees with ancestry read off positions. */
  lemma {:induction false} BelowMaskIsAncestry(nodes: seq<Node>, ctx: Selector, inside: bool, i: nat)
    requires i < |Elements(nodes)|
    ensures BelowMask(nodes, ctx, inside)[i] <==> inside || AncestorMatches(Elements(nodes), ctx, i)
    decreases nodes
  {
    var a, b := ElementsOf(nodes[0]), Elements(nodes[1..]);
    var ma, mb := BelowMaskAt(nodes[0], ctx, inside), BelowMask(nodes[1..], ctx, inside);
    assert Elements(nodes) == a + b;
    assert BelowMask(nodes, ctx, inside) == ma + mb;
    if i < |a| {
      assert (ma + mb)[i] == ma[i];
      BelowMaskIsAncestryAt(nodes[0], ctx, inside, i);
      AncestryInFirst(a, b, ctx, i);
    } else {
      assert (ma + mb)[i] == mb[i - |a|];
      BelowMaskIsAncestry(nodes[1..], ctx, inside, i - |a|);
      SubtreesStayInside(nodes[0]);
      AncestryInRest(a, b, ctx, i);
    }
  }

  /** No subtree inside a tree reaches past the tree's own span. */
  lemma SubtreesStayInside(n: Node)
    ensures forall j :: 0 <= j < |ElementsOf(n)| ==> j + |ElementsOf(ElementsOf(n)[j])| <= |ElementsOf(n)|
  {
    forall j | 0 <= j < |ElementsOf(n)| ensures j + |ElementsOf(ElementsOf(n)[j])| <= |ElementsOf(n)| {
      SubtreeInPlaceAt(n, j);
    }
  }

  /** The ancestors of an element of the first part of a forest lie in that part. */
  lemma AncestryInFirst(a: seq<Node>, b: seq<Node>, ctx: Selector, i: nat)
    requires i < |a|
    ensures AncestorMatches(a + b, ctx, i) <==> AncestorMatches(a, ctx, i)
  {
    if AncestorMatches(a + b, ctx, i) {
      var j :| Encloses(a + b, j, i) && Matches(ctx, (a + b)[j]);
      assert (a + b)[j] == a[j];
      assert Encloses(a, j, i) && Matches(ctx, a[j]);
    }
    if AncestorMatches(a, ctx, i) {
      var j :| Encloses(a, j, i) && Matches(ctx, a[j]);
      assert (a + b)[j] == a[j];
      assert Encloses(a + b, j, i) && Matches(ctx, (a + b)[j]);
    }
  }

  /** The ancestors of an element after the first part of a forest lie after
      it too, when no subtree of the first part reaches past it. */
  lemma AncestryInRest(a: seq<Node>, b: seq<Node>, ctx: Selector, i: nat)
    requires |a| <= i < |a| + |b|
    requires forall j :: 0 <= j < |a| ==> j + |ElementsOf(a[j])| <= |a|
    ensures AncestorMatches(a + b, ctx, i) <==> AncestorMatches(b, ctx, i - |a|)
  {
    var k := i - |a|;
    if AncestorMatches(a + b, ctx, i) {
      var j :| Encloses(a + b, j, i) && Matches(ctx, (a + b)[j]);
      assert j >= |a|;
      assert (a + b)[j] == b[j - |a|];
      assert Encloses(b, j - |a|, k) && Matches(ctx, b[j - |a|]);
    }
    if AncestorMatches(b, ctx, k) {
      var j :| Encloses(b, j, k) && Matches(ctx, b[j]);
      assert (a + b)[j + |a|] == b[j];
      assert Encloses(a + b, j + |a|, i) && Matches(ctx, (a + b)[j + |a|]);
    }
  }

  lemma {:induction false} BelowMaskIsAncestryAt(n: Node, ctx: Selector, inside: bool, i: nat)
    requires i < |ElementsOf(n)|
    ensures BelowMaskAt(n, ctx, inside)[i] <==> inside || AncestorMatches(ElementsOf(n), ctx, i)
    decreases n
  {
    match n
    case Element(_, _, kids) =>
      if i > 0 {
        var ek := Elements(kids);
        var inner := inside || Matches(ctx, n);
        assert ElementsOf(n) == [n] + ek;
        assert BelowMaskAt(n, ctx, inside)[i] == BelowMask(kids, ctx, inner)[i - 1];
        BelowMaskIsAncestry(kids, ctx, inner, i - 1);
        assert |ElementsOf(n)| == 1 + |ek|;
        AncestryStepsIn(n, ek, ctx, i);
      }
  }

  /** Below an element, its ancestors are the element itself and the
      ancestors among its descendants. */
  lemma AncestryStepsIn(n: Node, ek: seq<Node>, ctx: Selector, i: nat)
    requires 0 < i < 1 + |ek| && i < |ElementsOf(n)|
    ensures AncestorMatches([n] + ek, ctx, i) <==> Matches(ctx, n) || AncestorMatches(ek, ctx, i - 1)
  {
    var a := [n] + ek;
    if Matches(ctx, n) {
      assert Encloses(a, 0, i) && Matches(ctx, a[0]);
    }
    if AncestorMatches(ek, ctx, i - 1) {
      var j :| Encloses(ek, j, i - 1) && Matches(ctx, ek[j]);
      assert a[j + 1] == ek[j];
      assert Encloses(a, j + 1, i) && Matches(ctx, a[j + 1]);
    }
    if AncestorMatches(a, ctx, i) {
      var j :| Encloses(a, j, i) && Matches(ctx, a[j]);
      if j > 0 {
        assert ek[j - 1] == a[j];
        assert Encloses(ek, j - 1, i - 1) && Matches(ctx, ek[j - 1]);
      }
    }
  }

  /** Where a result of the search comes from: from anywhere in the forest when
      the search already is below a match, else from below a match inside it. */
  lemma {:induction false} FindBelow(nodes: seq<Node>, ctx: Selector, wants: seq<Selector>, inside: bool, x: Node)
    requires x in Find(nodes, ctx, wants, inside)
    ensures (inside && x in Elements(nodes))
      || exists y :: y in Elements(nodes) && Matches(ctx, y) && x in Elements(y.children)
    decreases nodes
  {
    var n, rest := nodes[0], nodes[1..];
    assert Elements(nodes) == ElementsOf(n) + Elements(rest);
    if x in FindIn(n, ctx, wants, inside) {
      FindBelowAt(n, ctx, wants, inside, x);
    } else {
      FindBelow(rest, ctx, wants, inside, x);
    }
  }

  lemma {:induction false} FindBelowAt(n: Node, ctx: Selector, wants: seq<Selector>, inside: bool, x: Node)
    requires x in FindIn(n, ctx, wants, inside)
    ensures (inside && x in ElementsOf(n))
      || exists y :: y in ElementsOf(n) && Matches(ctx, y) && x in Elements(y.children)
    decreases n
  {
    var kids := n.children;
    var inner := inside || Matches(ctx, n);
    assert ElementsOf(n) == [n] + Elements(kids);
    if x !in Find(kids, ctx, wants, inner) {
      assert x == n;
    } else {
      FindBelow(kids, ctx, wants, inner, x);
      if inner && x in Elements(kids) && Matches(ctx, n) {
        assert n in ElementsOf(n);
      }
    }
  }

  /** A wanted element is found when the search is below a match of `ctx`
      there, or when it lies below a match of `ctx` met on the way. */
  lemma {:induction false} FindReaches(nodes: seq<Node>, ctx: Selector, wants: seq<Selector>, inside: bool, y: Node, x: Node)
    requires y in Elements(nodes) && Matches(ctx, y) && x in Elements(y.children) && MatchesAny(wants, x)
    ensures x in Find(nodes, ctx, wants, inside)
    decreases nodes
  {
    var n, rest := nodes[0], nodes[1..];
    assert Elements(nodes) == ElementsOf(n) + Elements(rest);
    assert Find(nodes, ctx, wants, inside) == FindIn(n, ctx, wants, inside) + Find(rest, ctx, wants, inside);
    if y in ElementsOf(n) {
      FindReachesAt(n, ctx, wants, inside, y, x);
    } else {
      FindReaches(rest, ctx, wants, inside, y, x);
    }
  }

  lemma {:induction false} FindReachesAt(n: Node, ctx: Selector, wants: seq<Selector>, inside: bool, y: Node, x: Node)
    requires y in ElementsOf(n) && Matches(ctx, y) && x in Elements(y.children) && MatchesAny(wants, x)
    ensures x in FindIn(n, ctx, wants, inside)
    decreases n
  {
    var kids := n.children;
    var inner := inside || Matches(ctx, n);
    assert ElementsOf(n) == [n] + Elements(kids);
    if y == n {
      FindInsideHas(kids, ctx, wants, x);
    } else {
      FindReaches(kids, ctx, wants, inner, y, x);
    }
  }

  /** Below a match of `ctx`, every wanted element is found. */
  lemma FindInsideHas(nodes: seq<Node>, ctx: Selector, wants: seq<Selector>, x: Node)
    requires x in Elements(nodes) && MatchesAny(wants, x)
    ensures x in Find(nodes, ctx, wants, true)
  {
    var es := Elements(nodes);
    FindInsideIsAll(nodes, ctx, wants);
    var i :| 0 <= i < |es| && es[i] == x;
    PickKeeps(es, AnyMask(es, wants), i);
  }

  /** Removal below a selector that matches nothing, at top level, changes
      nothing. */
  lemma {:induction false} PruneWithoutMatch(nodes: seq<Node>, ctx: Selector, noise: seq<Selector>)
    requires forall e :: e in Elements(nodes) ==> !Matches(ctx, e)
    ensures Prune(nodes, ctx, noise, false) == nodes
    decreases nodes
  {
    if nodes != [] {
      assert Elements(nodes) == ElementsOf(nodes[0]) + Elements(nodes[1..]);
      PruneWithoutMatchAt(nodes[0], ctx, noise);
      PruneWithoutMatch(nodes[1..], ctx, noise);
      assert [nodes[0]] + nodes[1..] == nodes;
    }
  }

  lemma {:induction false} PruneWithoutMatchAt(n: Node, ctx: Selector, noise: seq<Selector>)
    requires forall e :: e in ElementsOf(n) ==> !Matches(ctx, e)
    ensures PruneIn(n, ctx, noise, false) == [n]
    decreases n
  {
    match n
    case Text(_) =>
    case Element(tag, attrs, kids) =>
      assert ElementsOf(n) == [n] + Elements(kids);
      assert !Matches(ctx, n);
      PruneWithoutMatch(kids, ctx, noise);
  }

  /** Removal where nothing is to be removed leaves the tree as it was. */
  lemma {:induction false} PruneWithoutNoise(nodes: seq<Node>, ctx: Selector, noise: seq<Selector>, inside: bool)
    requires Find(nodes, ctx, noise, inside) == []
    ensures Prune(nodes, ctx, noise, inside) == nodes
    decreases nodes
  {
    if nodes != [] {
      PruneWithoutNoiseAt(nodes[0], ctx, noise, inside);
      PruneWithoutNoise(nodes[1..], ctx, noise, inside);
      assert [nodes[0]] + nodes[1..] == nodes;
    }
  }

  lemma {:induction false} PruneWithoutNoiseAt(n: Node, ctx: Selector, noise: seq<Selector>, inside: bool)
    requires FindIn(n, ctx, noise, inside) == []
    ensures PruneIn(n, ctx, noise, inside) == [n]
    decreases n
  {
    match n
    case Text(_) =>
    case Element(_, _, kids) =>
      PruneWithoutNoise(kids, ctx, noise, inside || Matches(ctx, n));
  }

  // ------------------------------------------------------------ outline

  /** Every node of the forest, text nodes included, in document order
      (pre-order). */
  function AllNodes(nodes: seq<Node>): seq<Node>
    decreases nodes
  {
    if nodes == [] then [] else AllNodesOf(nodes[0]) + AllNodes(nodes[1..])
  }

  function AllNodesOf(n: Node): seq<Node>
    decreases n
  {
    match n
    case Text(_) => [n]
    case Element(_, _, kids) => [n] + AllNodes(kids)
  }

  /** A node with its children left off: an element's tag and attributes, or a
      text node's text. */
  function Shell(n: Node): Node {
    match n
    case Element(tag, attrs, _) => Element(tag, attrs, [])
    case Text(_) => n
  }

  /** One line of an outline: a node's shell and how deep it sits. */
  datatype Entry = Entry(shell: Node, depth: nat)

  /** The outline of a forest whose top level sits at `depth`: every node, text
      nodes included, in document order, as its shell and depth. Pre-order with
      depths fixes the tree, so two forests with the same outline are equal. */
  function Outline(nodes: seq<Node>, depth: nat): (r: seq<Entry>)
    ensures |r| == |AllNodes(nodes)|
    decreases nodes
  {
    if nodes == [] then [] else OutlineOf(nodes[0], depth) + Outline(nodes[1..], depth)
  }

  function OutlineOf(n: Node, depth: nat): (r: seq<Entry>)
    ensures |r| == |AllNodesOf(n)|
    decreases n
  {
    match n
    case Text(_) => [Entry(n, depth)]
    case Element(_, _, kids) => [Entry(Shell(n), depth)] + Outline(kids, depth + 1)
  }

  lemma {:induction false} OutlineConcat(a: seq<Node>, b: seq<Node>, depth: nat)
    ensures Outline(a + b, depth) == Outline(a, depth) + Outline(b, depth)
    decreases a
  {
    if a != [] {
      assert (a + b)[1..] == a[1..] + b;
      OutlineConcat(a[1..], b, depth);
    } else {
      assert a + b == b;
    }
  }

  // ---------------------------------------------------- what removal keeps

  /** Which nodes of the forest, text nodes included, `Prune` keeps, in
      document order: an element the find returns is dropped together with
      everything below it; every other node stays. */
  function KeepMask(nodes: seq<Node>, ctx: Selector, noise: seq<Selector>, inside: bool): (m: seq<bool>)
    ensures |m| == |AllNodes(nodes)|
    decreases nodes
  {
    if nodes == [] then [] else KeepMaskAt(nodes[0], ctx, noise, inside) + KeepMask(nodes[1..], ctx, noise, inside)
  }

  function KeepMaskAt(n: Node, ctx: Selector, noise: seq<Selector>, inside: bool): (m: seq<bool>)
    ensures |m| == |AllNodesOf(n)|
    decreases n
  {
    match n
    case Text(_) => [true]
    case Element(_, _, kids) =>
      if inside && MatchesAny(noise, n) then seq(|AllNodesOf(n)|, _ => false)
      else [true] + KeepMask(kids, ctx, noise, inside || Matches(ctx, n))
  }

  /** After `.find(noise).remove()` the outline of the page is the original
      outline less the lines the keep mask drops: every kept node, text nodes
      included, keeps its tag, attributes or text, its depth and its place in
      document order, and so its parent. `PruneDropsOnlyFound` says that each
      dropped node lies inside what the find returned. */
  lemma {:induction false} PruneKeepsTheRest(nodes: seq<Node>, ctx: Selector, noise: seq<Selector>, inside: bool, depth: nat)
    ensures Outline(Prune(nodes, ctx, noise, inside), depth) == Pick(Outline(nodes, depth), KeepMask(nodes, ctx, noise, inside))
    decreases nodes
  {
    if nodes != [] {
      var n, rest := nodes[0], nodes[1..];
      PruneKeepsTheRestAt(n, ctx, noise, inside, depth);
      PruneKeepsTheRest(rest, ctx, noise, inside, depth);
      OutlineConcat(PruneIn(n, ctx, noise, inside), Prune(rest, ctx, noise, inside), depth);
      PickConcat(OutlineOf(n, depth), KeepMaskAt(n, ctx, noise, inside),
                 Outline(rest, depth), KeepMask(rest, ctx, noise, inside));
    }
  }

  lemma {:induction false} PruneKeepsTheRestAt(n: Node, ctx: Selector, noise: seq<Selector>, inside: bool, depth: nat)
    ensures Outline(PruneIn(n, ctx, noise, inside), depth) == Pick(OutlineOf(n, depth), KeepMaskAt(n, ctx, noise, inside))
    decreases n
  {
    match n
    case Text(_) =>
      assert Outline([n], depth) == OutlineOf(n, depth);
    case Element(tag, attrs, kids) =>
      if inside && MatchesAny(noise, n) {
        PickNone(OutlineOf(n, depth), KeepMaskAt(n, ctx, noise, inside));
      } else {
        var inner := inside || Matches(ctx, n);
        var pk := Prune(kids, ctx, noise, inner);
        PruneKeepsTheRest(kids, ctx, noise, inner, depth + 1);
        var head := Entry(Shell(n), depth);
        assert PruneIn(n, ctx, noise, inside) == [Element(tag, attrs, pk)];
        assert Outline([Element(tag, attrs, pk)], depth) == [head] + Outline(pk, depth + 1);
        PickConcat([head], [true], Outline(kids, depth + 1), KeepMask(kids, ctx, noise, inner));
      }
  }

  /** Every node the removal drops, text nodes included, lies inside, or is, an
      element the find returned. */
  lemma {:induction false} PruneDropsOnlyFound(nodes: seq<Node>, ctx: Selector, noise: seq<Selector>, inside: bool, i: nat)
    requires i < |AllNodes(nodes)| && !KeepMask(nodes, ctx, noise, inside)[i]
    ensures exists y :: y in Find(nodes, ctx, noise, inside) && AllNodes(nodes)[i] in AllNodesOf(y)
    decreases nodes
  {
    var n, rest := nodes[0], nodes[1..];
    var a := AllNodesOf(n);
    if i < |a| {
      assert AllNodes(nodes)[i] == a[i];
      PruneDropsOnlyFoundAt(n, ctx, noise, inside, i);
    } else {
      assert AllNodes(nodes)[i] == AllNodes(rest)[i - |a|];
      assert KeepMask(nodes, ctx, noise, inside)[i] == KeepMask(rest, ctx, noise, inside)[i - |a|];
      PruneDropsOnlyFound(rest, ctx, noise, inside, i - |a|);
    }
  }

  lemma {:induction false} PruneDropsOnlyFoundAt(n: Node, ctx: Selector, noise: seq<Selector>, inside: bool, i: nat)
    requires i < |AllNodesOf(n)| && !KeepMaskAt(n, ctx, noise, inside)[i]
    ensures exists y :: y in FindIn(n, ctx, noise, inside) && AllNodesOf(n)[i] in AllNodesOf(y)
    decreases n
  {
    var kids := n.children;
    if inside && MatchesAny(noise, n) {
      assert n in FindIn(n, ctx, noise, inside);
    } else {
      var inner := inside || Matches(ctx, n);
      assert AllNodesOf(n)[i] == AllNodes(kids)[i - 1];
      PruneDropsOnlyFound(kids, ctx, noise, inner, i - 1);
    }
  }

  // ------------------------------------------------------------------ text

  /** `.text()`: the text nodes below a node, concatenated in document order. */
  function TextOf(n: Node): string
    decreases n
  {
    match n
    case Text(d) => d
    case Element(_, _, kids) => TextOfAll(kids)
  }

  function TextOfAll(nodes: seq<Node>): string
    decreases nodes
  {
    if nodes == [] then "" else TextOf(nodes[0]) + TextOfAll(nodes[1..])
  }

  /** The data of the text nodes in a list of nodes, joined in order; elements
      contribute nothing of their own. */
  function TextData(ns: seq<Node>): string {
    if ns == [] then "" else (if ns[0].Text? then ns[0].data else "") + TextData(ns[1..])
  }

  lemma {:induction false} TextDataConcat(a: seq<Node>, b: seq<Node>)
    ensures TextData(a + b) == TextData(a) + TextData(b)
  {
    if a != [] {
      assert (a + b)[1..] == a[1..] + b;
      TextDataConcat(a[1..], b);
    } else {
      assert a + b == b;
    }
  }

  /** `.text()` of a run of nodes is the data of every text node among them and
      below them, in document order. */
  lemma {:induction false} TextOfAllIsTextNodes(nodes: seq<Node>)
    ensures TextOfAll(nodes) == TextData(AllNodes(nodes))
    decreases nodes
  {
    if nodes != [] {
      TextOfIsTextNodes(nodes[0]);
      TextOfAllIsTextNodes(nodes[1..]);
      TextDataConcat(AllNodesOf(nodes[0]), AllNodes(nodes[1..]));
    }
  }

  /** `.text()` of a node is the data of every text node it is or holds, in
      document order. */
  lemma {:induction false} TextOfIsTextNodes(n: Node)
    ensures TextOf(n) == TextData(AllNodesOf(n))
    decreases n
  {
    match n
    case Text(d) =>
      assert TextData([n]) == d + TextData([]);
    case Element(_, _, kids) =>
      TextOfAllIsTextNodes(kids);
      TextDataConcat([n], AllNodes(kids));
      assert TextData([n]) == "" + TextData([]);
  }
}

=== FILE: escaping.dfy ===
/** The `escapeHtml` helper of the PDF renderer (index.js:128-133): five global
    replacements applied one after another, `&` first. */
module Escaping {

  /** The characters that must not appear raw in text embedded in markup. */
  predicate IsMarkup(c: char) {
    c == '<' || c == '>' || c == '"' || c == '\''
  }

  /** `s.replace(/c/g, rep)`: every occurrence of `c` replaced by `rep`. */
  function ReplaceAll(s: string, c: char, rep: string): string
  {
    if s == [] then ""
    else (if s[0] == c then rep else [s[0]]) + ReplaceAll(s[1..], c, rep)
  }

  lemma {:induction false} ReplaceAllConcat(a: string, b: string, c: char, rep: string)
    ensures ReplaceAll(a + b, c, rep) == ReplaceAll(a, c, rep) + ReplaceAll(b, c, rep)
  {
    if a != [] {
      assert (a + b)[1..] == a[1..] + b;
      ReplaceAllConcat(a[1..], b, c, rep);
    } else {
      assert a + b == b;
    }
  }

  /** The replacement chain exactly as written, in the order written. */
  function EscapeHtml(s: string): (r: string)
    ensures forall i :: 0 <= i < |r| ==> !IsMarkup(r[i])
    ensures forall i :: 0 <= i < |r| && r[i] == '&' ==> EntityStart(r[i..])
  {
    EscapeIsPerChar(s);
    EscapeEachShape(s);
    Chain(s)
  }

  function Chain(s: string): string {
    ReplaceAll(ReplaceAll(ReplaceAll(ReplaceAll(ReplaceAll(
      s, '&', "&amp;"), '<', "&lt;"), '>', "&gt;"), '"', "&quot;"), '\'', "&#039;")
  }

  /** The entity a single character is written as. */
  function EscapeChar(c: char): string {
    if c == '&' then "&amp;"
    else if c == '<' then "&lt;"
    else if c == '>' then "&gt;"
    else if c == '"' then "&quot;"
    else if c == '\'' then "&#039;"
    else [c]
  }

  /** Character-by-character escaping, the reference the chain is checked
      against. */
  function EscapeEach(s: string): string {
    if s == [] then "" else EscapeChar(s[0]) + EscapeEach(s[1..])
  }

  lemma ReplaceOne(c: char, d: char, rep: string)
    ensures ReplaceAll([c], d, rep) == if c == d then rep else [c]
  {
    assert [c][1..] == [];
  }

  lemma {:induction false} ReplaceAbsent(s: string, c: char, rep: string)
    requires c !in s
    ensures ReplaceAll(s, c, rep) == s
  {
    if s != [] {
      ReplaceAbsent(s[1..], c, rep);
      assert [s[0]] + s[1..] == s;
    }
  }

  lemma ChainOfChar(c: char)
    ensures Chain([c]) == EscapeChar(c)
  {
    ChainOfCharIs(c, EscapeChar(c), "&amp;", "&lt;", "&gt;", "&quot;", "&#039;");
  }

  /** The entities are handed in as parameters so that the solver does not try
      to run the passes on string literals. */
  lemma ChainOfCharIs(c: char, e: string, amp: string, lt: string, gt: string, quot: string, apos: string)
    requires amp == "&amp;" && lt == "&lt;" && gt == "&gt;" && quot == "&quot;" && apos == "&#039;"
    requires e == EscapeChar(c)
    ensures Chain([c]) == e
  {
    ReplaceOne(c, '&', amp);
    ReplaceOne(c, '<', lt);
    ReplaceOne(c, '>', gt);
    ReplaceOne(c, '"', quot);
    ReplaceOne(c, '\'', apos);
    if c == '&' {
      ReplaceAbsent(e, '<', lt);
      ReplaceAbsent(e, '>', gt);
      ReplaceAbsent(e, '"', quot);
      ReplaceAbsent(e, '\'', apos);
    } else if c == '<' {
      ReplaceAbsent(e, '>', gt);
      ReplaceAbsent(e, '"', quot);
      ReplaceAbsent(e, '\'', apos);
    } else if c == '>' {
      ReplaceAbsent(e, '"', quot);
      ReplaceAbsent(e, '\'', apos);
    } else if c == '"' {
      ReplaceAbsent(e, '\'', apos);
    }
  }

  lemma ChainConcat(a: string, b: string)
    ensures Chain(a + b) == Chain(a) + Chain(b)
  {
    var a1, b1 := ReplaceAll(a, '&', "&amp;"), ReplaceAll(b, '&', "&amp;");
    ReplaceAllConcat(a, b, '&', "&amp;");
    var a2, b2 := ReplaceAll(a1, '<', "&lt;"), ReplaceAll(b1, '<', "&lt;");
    ReplaceAllConcat(a1, b1, '<', "&lt;");
    var a3, b3 := ReplaceAll(a2, '>', "&gt;"), ReplaceAll(b2, '>', "&gt;");
    ReplaceAllConcat(a2, b2, '>', "&gt;");
    var a4, b4 := ReplaceAll(a3, '"', "&quot;"), ReplaceAll(b3, '"', "&quot;");
    ReplaceAllConcat(a3, b3, '"', "&quot;");
    ReplaceAllConcat(a4, b4, '\'', "&#039;");
  }

  /** The five passes amount to escaping each character on its own: no pass
      disturbs what an earlier one wrote, because `&` goes first. */
  lemma {:induction false} EscapeIsPerChar(s: string)
    ensures Chain(s) == EscapeEach(s)
  {
    if s != [] {
      assert s == [s[0]] + s[1..];
      ChainConcat([s[0]], s[1..]);
      ChainOfChar(s[0]);
      EscapeIsPerChar(s[1..]);
    }
  }

  /** `t` opens with one of the five entities `escapeHtml` writes. */
  predicate EntityStart(t: string) {
    || (|t| >= 5 && t[..5] == "&amp;")
    || (|t| >= 4 && t[..4] == "&lt;")
    || (|t| >= 4 && t[..4] == "&gt;")
    || (|t| >= 6 && t[..6] == "&quot;")
    || (|t| >= 6 && t[..6] == "&#039;")
  }

  lemma {:induction false} EscapeEachShape(s: string)
    ensures forall i :: 0 <= i < |EscapeEach(s)| ==> !IsMarkup(EscapeEach(s)[i])
    ensures forall i :: 0 <= i < |EscapeEach(s)| && EscapeEach(s)[i] == '&' ==> EntityStart(EscapeEach(s)[i..])
  {
    if s != [] {
      EscapeEachShape(s[1..]);
      var e := EscapeChar(s[0]);
      var t := EscapeEach(s[1..]);
      var r := e + t;
      forall i | 0 <= i < |r| ensures !IsMarkup(r[i]) && (r[i] == '&' ==> EntityStart(r[i..])) {
        if i < |e| {
          if r[i] == '&' {
            assert i == 0;
            assert r[..|e|] == e;
          }
        } else {
          assert r[i] == t[i - |e|];
          assert r[i..] == t[i - |e|..];
        }
      }
    }
  }

  /** Decoding of the five entities, left to right; anything else is kept. */
  function Unescape(s: string): string
    decreases |s|
  {
    if |s| >= 5 && s[..5] == "&amp;" then "&" + Unescape(s[5..])
    else if |s| >= 4 && s[..4] == "&lt;" then "<" + Unescape(s[4..])
    else if |s| >= 4 && s[..4] == "&gt;" then ">" + Unescape(s[4..])
    else if |s| >= 6 && s[..6] == "&quot;" then "\"" + Unescape(s[6..])
    else if |s| >= 6 && s[..6] == "&#039;" then "'" + Unescape(s[6..])
    else if s == [] then ""
    else [s[0]] + Unescape(s[1..])
  }

  lemma UnescapeStep(c: char, t: string)
    ensures Unescape(EscapeChar(c) + t) == [c] + Unescape(t)
  {
    var e := EscapeChar(c);
    var s := e + t;
    assert s[..|e|] == e && s[|e|..] == t;
    if IsMarkup(c) || c == '&' {
      assert s[0] == '&' && s[1] == e[1];
      assert |s| >= 4 ==> s[..4][1] == s[1];
      assert |s| >= 5 ==> s[..5][1] == s[1];
      assert |s| >= 6 ==> s[..6][1] == s[1] && s[..6][2] == s[2];
      if c == '>' {
        assert s[..4] == e;
      } else if c == '"' {
        assert s[..6] == e;
      } else if c == '\'' {
        assert s[..6] == e;
        assert |s| >= 6 && s[..6] == "&#039;";
      }
    } else {
      assert s[0] == c && s[0] != '&';
      assert !EntityStart(s) by {
        if |s| >= 4 { assert s[..4][0] == s[0]; }
        if |s| >= 5 { assert s[..5][0] == s[0]; }
        if |s| >= 6 { assert s[..6][0] == s[0]; }
      }
      assert s[1..] == t;
    }
  }

  /** Decoding the entities recovers the original text exactly: escaping loses
      nothing, and text that already contained an entity such as `&amp;` comes
      back as written rather than decoded one level too far. */
  lemma {:induction false} UnescapeEscape(s: string)
    ensures Unescape(EscapeHtml(s)) == s
  {
    EscapeIsPerChar(s);
    EscapeEachRoundTrip(s);
  }

  lemma {:induction false} EscapeEachRoundTrip(s: string)
    ensures Unescape(EscapeEach(s)) == s
  {
    if s != [] {
      UnescapeStep(s[0], EscapeEach(s[1..]));
      EscapeEachRoundTrip(s[1..]);
      assert [s[0]] + s[1..] == s;
    }
  }

  /** Distinct texts escape to distinct markup. */
  lemma EscapeInjective(a: string, b: string)
    requires EscapeHtml(a) == EscapeHtml(b)
    ensures a == b
  {
    UnescapeEscape(a);
    UnescapeEscape(b);
  }
}

=== FILE: export.dfy ===
/** The three renderers (index.js:95-194) reduced to what they put in the file:
    the DOCX paragraph list, the HTML handed to the headless browser for the
    PDF, and the HTML export. Writing the file, the officegen and puppeteer
    libraries and the page's fixed stylesheet are outside the model. */
module Export {
  import opened JsText
  import opened Seqs
  import opened Paragraphs
  import opened Escaping
  import opened Results

  datatype Format = Docx | Pdf | Html

  /** The route's dispatch (index.js:215-217): `docx` and `pdf` by exact
      comparison, every other string to HTML. No format is an error. */
  function FormatOf(format: string): (f: Format)
    ensures f == Docx <==> format == "docx"
    ensures f == Pdf <==> format == "pdf"
    ensures f == Html <==> format != "docx" && format != "pdf"
  {
    if format == "docx" then Docx else if format == "pdf" then Pdf else Html
  }

  function Extension(f: Format): string {
    match f
    case Docx => "docx"
    case Pdf => "pdf"
    case Html => "html"
  }

  /** `article_${Date.now()}.<ext>`, the clock reading passed in. */
  function FileName(f: Format, now: nat): (name: string)
    ensures |name| > 9 + |Extension(f)|
    ensures name[..8] == "article_"
    ensures name[|name| - |Extension(f)| - 1..] == "." + Extension(f)
    ensures name[8..|name| - |Extension(f)| - 1] == DecimalString(now)
  {
    var digits := DecimalString(now);
    var head := "article_" + digits;
    var name := head + ("." + Extension(f));
    assert name[..|head|] == head;
    assert name[..8] == head[..8] == "article_";
    assert name[8..|head|] == head[8..] == digits;
    assert name[|head|..] == "." + Extension(f);
    name
  }

  /** Files of one format written at different clock readings get different
      names. */
  lemma FileNameDistinct(f: Format, a: nat, b: nat)
    requires a != b
    ensures FileName(f, a) != FileName(f, b)
  {
    var na, nb := FileName(f, a), FileName(f, b);
    DecimalRoundTrip(a);
    DecimalRoundTrip(b);
    assert na == nb ==> DecimalString(a) == DecimalString(b);
  }

  /** The bold 18-point title paragraph of the DOCX file. */
  datatype TitleRun = TitleRun(text: string, bold: bool, fontSize: nat)

  /** What a renderer puts in its file. The PDF and HTML pages are given by
      their `h1` text and the paragraph markup after it. */
  datatype Rendered =
    | DocxDocument(title: TitleRun, paragraphs: seq<string>)
    | PdfPage(heading: string, body: string)
    | HtmlPage(heading: string, body: string)

  datatype ExportFile = ExportFile(filename: string, document: Rendered)

  // ------------------------------------------------------------------- DOCX

  /** The DOCX body (index.js:101-106): the content split on blank lines, each
      part trimmed, the parts that trim to nothing skipped. */
  function DocxParagraphs(content: string): (ps: seq<string>)
    ensures forall k :: 0 <= k < |ps| ==> ps[k] != "" && IsTrimmed(ps[k])
    ensures |ps| <= |Split(content)|
  {
    KeepTrimmed(Split(content), 0)
  }

  /** The paragraphs of the DOCX file are the trimmed split parts that are not
      blank: every one of them, in order, and nothing else. */
  lemma DocxKeepsNonBlankParts(title: string, content: string, now: nat) returns (m: seq<bool>)
    ensures var parts := Split(content);
      && |m| == |parts|
      && (forall i :: 0 <= i < |parts| ==> (m[i] <==> !AllSpace(parts[i])))
      && CreateDocx(title, content, now).document.paragraphs == TrimAll(Pick(parts, m))
  {
    var parts := Split(content);
    m := KeepTrimmedIsFilter(parts, 0);
    forall i | 0 <= i < |parts| ensures m[i] <==> !AllSpace(parts[i]) {
      TrimEmptyIff(parts[i]);
    }
  }

  /** Content built by the extractor comes out of the DOCX renderer as the
      very paragraphs that went in, provided none of them holds a blank line:
      each is trimmed and non-empty, so it neither ends the split early nor is
      dropped, and the empty part after the final separator is skipped. */
  lemma DocxOfContent(texts: seq<string>)
    requires forall k :: 0 <= k < |texts| ==> texts[k] != "" && IsTrimmed(texts[k]) && !HasBlankLine(texts[k])
    ensures DocxParagraphs(ContentOf(texts)) == texts
  {
    TrimmedTextsFit(texts);
    ContentRoundTrip(texts);
    KeepTrimmedConcat(texts, [""], 0);
    KeepTrimmedOfKept(texts, 0);
    KeepTrimmedDropsEmpty();
    assert texts + [] == texts;
  }

  /** A trimmed non-empty text neither ends in a newline nor is empty in
      UTF-16 code units. */
  lemma TrimmedTextsFit(texts: seq<string>)
    requires forall k :: 0 <= k < |texts| ==> texts[k] != "" && IsTrimmed(texts[k]) && !HasBlankLine(texts[k])
    ensures forall k :: 0 <= k < |texts| ==> !HasBlankLine(texts[k]) && !EndsWithNewline(texts[k])
    ensures forall k :: 0 <= k < |texts| ==> IsTrimmed(texts[k]) && JsLength(texts[k]) > 0
  {
    assert IsSpace('\n');
  }

  lemma KeepTrimmedDropsEmpty()
    ensures KeepTrimmed([""], 0) == []
  {
    assert Trim("") == "";
    assert [""][1..] == [];
  }

  /** `createDocx` (index.js:95-108): the title run, then one paragraph per
      split part that is not blank, trimmed. */
  function CreateDocx(title: string, content: string, now: nat): (file: ExportFile)
    ensures file.filename == FileName(Docx, now)
    ensures file.document.DocxDocument?
    ensures file.document.title == TitleRun(title, true, 18)
    ensures file.document.paragraphs == DocxParagraphs(content)
  {
    ExportFile(FileName(Docx, now), DocxDocument(TitleRun(title, true, 18), DocxParagraphs(content)))
  }

  // ------------------------------------------------------------ PDF / HTML

  /** One `<p>…</p>` per text, concatenated with nothing in between. */
  function ParagraphMarkup(texts: seq<string>): string {
    if texts == [] then "" else "<p>" + texts[0] + "</p>" + ParagraphMarkup(texts[1..])
  }

  /** The PDF body (index.js:136-139): one paragraph per split part, blank
      parts included, each part trimmed and then escaped. */
  function PdfBody(content: string): string {
    var parts := Split(content);
    ParagraphMarkup(seq(|parts|, i requires 0 <= i < |parts| => EscapeHtml(Trim(parts[i]))))
  }

  /** `createPdf` (index.js:135-175): the escaped title as the heading, then
      one escaped paragraph per split part, blank parts included. */
  function CreatePdf(title: string, content: string, now: nat): (file: ExportFile)
    ensures file.filename == FileName(Pdf, now)
    ensures file.document.PdfPage?
    ensures forall i :: 0 <= i < |file.document.heading| ==> !IsMarkup(file.document.heading[i])
    ensures Unescape(file.document.heading) == title
    ensures file.document.body == PdfBody(content)
    ensures var parts := Split(content);
      exists ps :: ParseParagraphs(file.document.body) == Some(ps)
        && |ps| == |parts|
        && forall i :: 0 <= i < |parts| ==> ps[i] == EscapeHtml(Trim(parts[i])) && Unescape(ps[i]) == Trim(parts[i])
  {
    UnescapeEscape(title);
    PdfBodyParagraphs(content);
    ExportFile(FileName(Pdf, now), PdfPage(EscapeHtml(title), PdfBody(content)))
  }

  /** `createHtml` (index.js:180-194) as written: the title and the trimmed
      parts go into the page as they are, without escaping. */
  function CreateHtml(title: string, content: string, now: nat): (file: ExportFile)
    ensures file.filename == FileName(Html, now)
    ensures file.document.HtmlPage?
    ensures file.document.heading == title
    ensures file.document.body == ParagraphMarkup(TrimAll(Split(content)))
  {
    ExportFile(FileName(Html, now), HtmlPage(title, ParagraphMarkup(TrimAll(Split(content)))))
  }

  // ------------------------------------------ reading the paragraphs back

  /** The first `<` at or after `from`, or the end of `s`. */
  function NextOpen(s: string, from: nat): (k: nat)
    requires from <= |s|
    ensures from <= k <= |s|
    ensures forall j :: from <= j < k ==> s[j] != '<'
    ensures k < |s| ==> s[k] == '<'
    decreases |s| - from
  {
    if from == |s| || s[from] == '<' then from else NextOpen(s, from + 1)
  }

  /** Reads a run of `<p>…</p>` paragraphs whose texts hold no `<`; `None` when
      the string is not such a run. */
  function ParseParagraphs(s: string): Option<seq<string>>
    decreases |s|
  {
    if s == [] then Some([])
    else if |s| >= 3 && s[..3] == "<p>" then
      var k := NextOpen(s, 3);
      if k + 4 <= |s| && s[k..k + 4] == "</p>" then
        match ParseParagraphs(s[k + 4..])
        case Some(rest) => Some([s[3..k]] + rest)
        case None => None
      else None
    else None
  }

  lemma ParseFirst(t: string, rest: string)
    requires '<' !in t
    ensures ParseParagraphs("<p>" + t + "</p>" + rest) ==
      match ParseParagraphs(rest)
      case Some(ts) => Some([t] + ts)
      case None => None
  {
    var s := "<p>" + t + "</p>" + rest;
    assert s[..3] == "<p>";
    var k := NextOpen(s, 3);
    assert s[3 + |t|] == '<';
    forall j | 3 <= j < 3 + |t| ensures s[j] != '<' {
      assert s[j] == t[j - 3];
    }
    assert k == 3 + |t|;
    assert s[k..k + 4] == "</p>";
    assert s[3..k] == t;
    assert s[k + 4..] == rest;
  }

  /** Paragraph markup reads back as the texts it was built from when no text
      holds a `<`: one paragraph per text, in order. */
  lemma {:induction false} ParseParagraphMarkup(texts: seq<string>)
    requires forall k :: 0 <= k < |texts| ==> '<' !in texts[k]
    ensures ParseParagraphs(ParagraphMarkup(texts)) == Some(texts)
  {
    if texts != [] {
      ParseParagraphMarkup(texts[1..]);
      ParseFirst(texts[0], ParagraphMarkup(texts[1..]));
      assert [texts[0]] + texts[1..] == texts;
    }
  }

  /** The PDF body holds exactly one paragraph per split part, blank parts
      included, and the n-th holds the n-th part trimmed and escaped; decoding
      the entities gives the trimmed part back. */
  lemma PdfBodyParagraphs(content: string)
    ensures var parts := Split(content);
      exists ps :: ParseParagraphs(PdfBody(content)) == Some(ps)
        && |ps| == |parts|
        && forall i :: 0 <= i < |parts| ==> ps[i] == EscapeHtml(Trim(parts[i])) && Unescape(ps[i]) == Trim(parts[i])
  {
    var parts := Split(content);
    var escaped := seq(|parts|, i requires 0 <= i < |parts| => EscapeHtml(Trim(parts[i])));
    forall k | 0 <= k < |escaped| ensures '<' !in escaped[k] {
      EscapedHasNoOpen(Trim(parts[k]));
    }
    ParseParagraphMarkup(escaped);
    forall i | 0 <= i < |parts| ensures Unescape(escaped[i]) == Trim(parts[i]) {
      UnescapeEscape(Trim(parts[i]));
    }
  }

  lemma EscapedHasNoOpen(t: string)
    ensures '<' !in EscapeHtml(t)
  {
    var e := EscapeHtml(t);
    assert forall i :: 0 <= i < |e| ==> !IsMarkup(e[i]);
  }

  /** The HTML export reads back as one paragraph per split part, trimmed, but
      only for content without `<`: the texts are not escaped. */
  lemma HtmlBodyParagraphs(title: string, content: string, now: nat)
    requires '<' !in content
    ensures ParseParagraphs(CreateHtml(title, content, now).document.body) == Some(TrimAll(Split(content)))
  {
    var parts := Split(content);
    var trimmed := TrimAll(parts);
    forall k | 0 <= k < |trimmed| ensures '<' !in trimmed[k] {
      PartsOfClean(parts, content, k);
      var i := TrimIsMiddle(parts[k]);
      forall j | 0 <= j < |trimmed[k]| ensures trimmed[k][j] != '<' {
        assert trimmed[k][j] == parts[k][i + j];
      }
    }
    ParseParagraphMarkup(trimmed);
  }

  /** A part of the split holds no character the content does not. */
  lemma PartsOfClean(parts: seq<string>, content: string, k: nat)
    requires parts == Split(content) && '<' !in content && k < |parts|
    ensures '<' !in parts[k]
  {
    JoinKeeps(parts, k);
  }

  lemma {:induction false} JoinKeeps(parts: seq<string>, k: nat)
    requires |parts| >= 1 && k < |parts|
    ensures forall c :: c in parts[k] ==> c in JoinSep(parts)
  {
    if |parts| > 1 {
      if k > 0 {
        JoinKeeps(parts[1..], k - 1);
        assert parts[k] == parts[1..][k - 1];
      }
      var j := JoinSep(parts);
      assert j == parts[0] + Separator + JoinSep(parts[1..]);
      forall c | c in parts[k] ensures c in j {
        if k == 0 {
          var i :| 0 <= i < |parts[0]| && parts[0][i] == c;
          assert j[i] == c;
        } else {
          var rest := JoinSep(parts[1..]);
          var i :| 0 <= i < |rest| && rest[i] == c;
          assert j[|parts[0]| + 2 + i] == c;
        }
      }
    }
  }
}

=== FILE: extractor.dfy ===
/** `extractArticle` (index.js:21-92): the title fallback chain, the two-phase
    paragraph scan, and the status filter the page fetch is made with. The
    fetch itself is a parameter: the model receives what the HTTP client
    returned, already parsed into a document. */
module Extractor {
  import opened Results
  import opened JsText
  import opened Seqs
  import opened Dom
  import opened Paragraphs
  import opened Walks

  /** The title used when no candidate is truthy. */
  const Placeholder: string := "Tanpa Judul"

  /** A paragraph is kept when its trimmed text is longer than this. */
  const MinLength: nat := 40

  /** The candidate article containers, tried in this order. */
  const ContentSelectors: seq<Selector> := [
    Tag("article"),
    AttrContains("class", "content"),
    AttrContains("class", "article"),
    AttrContains("id", "content"),
    AttrContains("id", "article"),
    Tag("main"),
    HasClass("post-content"),
    HasClass("entry-content")
  ]

  /** `script, style, nav, footer, header, aside, .ads, .advertisement` */
  const Noise: seq<Selector> := [
    Tag("script"), Tag("style"), Tag("nav"), Tag("footer"), Tag("header"), Tag("aside"),
    HasClass("ads"), HasClass("advertisement")
  ]

  const ParagraphTag: Selector := Tag("p")

  predicate IsParagraph(n: Node) {
    n.Element? && n.tag == "p"
  }

  // ---------------------------------------------------------------- title

  /** `$('h1').first().text()`: the text of the first `h1` in document order,
      or the empty string when the page has none. */
  function FirstHeadingText(doc: Document): (t: string)
    ensures NoMatch(doc, Tag("h1")) ==> t == ""
    ensures forall i :: FirstAt(doc, Tag("h1"), i) ==> t == TextOf(Elements(doc)[i])
  {
    match FirstMatch(doc, Tag("h1"))
    case None => ""
    case Some(h) => TextOf(h)
  }

  /** `$(sel).attr('content')`: the `content` attribute of the first match in
      document order, `undefined` when nothing matches or the first match has
      no such attribute (a later match that has one is not consulted). */
  function FirstContentAttr(doc: Document, sel: Selector): (v: Option<string>)
    ensures NoMatch(doc, sel) ==> v == None
    ensures forall i :: FirstAt(doc, sel, i) ==> v == Attr(Elements(doc)[i], "content")
  {
    match FirstMatch(doc, sel)
    case None => None
    case Some(e) => Attr(e, "content")
  }

  /** The four operands of the `||` chain, in order; the last is the text of
      every `title` element, which is the data of the text nodes below them in
      document order. */
  function TitleCandidates(doc: Document): (c: seq<Option<string>>)
    ensures |c| == 4 && c[0] == Some(FirstHeadingText(doc)) && c[3].Some?
    ensures c[1] == FirstContentAttr(doc, TagWithAttr("meta", "property", "og:title"))
    ensures c[2] == FirstContentAttr(doc, TagWithAttr("meta", "name", "title"))
    ensures c[3].value == TextData(AllNodes(Select(doc, Tag("title"))))
  {
    TextOfAllIsTextNodes(Select(doc, Tag("title")));
    [ Some(FirstHeadingText(doc)),
      FirstContentAttr(doc, TagWithAttr("meta", "property", "og:title")),
      FirstContentAttr(doc, TagWithAttr("meta", "name", "title")),
      Some(TextOfAll(Select(doc, Tag("title")))) ]
  }

  /** JavaScript's `a || b || ... || z`: the first truthy operand, or the last
      operand when none is truthy. */
  function OrChain(vs: seq<Option<string>>): (r: Option<string>)
    requires |vs| >= 1
    ensures exists i :: (0 <= i < |vs| && r == vs[i]
                         && (forall j :: 0 <= j < i ==> !Truthy(vs[j]))
                         && (Truthy(r) || i == |vs| - 1))
  {
    if |vs| == 1 || Truthy(vs[0]) then
      assert vs[0] == vs[0];
      vs[0]
    else
      var r := OrChain(vs[1..]);
      var i :| 0 <= i < |vs[1..]| && r == vs[1..][i]
        && (forall j :: 0 <= j < i ==> !Truthy(vs[1..][j]))
        && (Truthy(r) || i == |vs[1..]| - 1);
      assert r == vs[i + 1];
      assert forall j :: 0 <= j < i + 1 ==> !Truthy(vs[j]) by {
        forall j | 0 <= j < i + 1 ensures !Truthy(vs[j]) {
          if j > 0 { assert vs[j] == vs[1..][j - 1]; }
        }
      }
      r
  }

  /** The title `extractArticle` reports (index.js:42-48): the first truthy
      candidate among the first `h1`'s text, the `og:title` content, the
      `meta name="title"` content and the `title` text, trimmed only after it
      was chosen; the placeholder when all four are empty or absent. */
  function ResolveTitle(doc: Document): (t: string)
    ensures IsTrimmed(t)
    ensures var c := TitleCandidates(doc);
      (forall i :: 0 <= i < 4 ==> !Truthy(c[i])) ==> t == Placeholder
    ensures var c := TitleCandidates(doc);
      forall i :: 0 <= i < 4 && Truthy(c[i]) && (forall j :: 0 <= j < i ==> !Truthy(c[j])) ==>
        t == Trim(c[i].value)
  {
    var v := OrChain(TitleCandidates(doc));
    if Truthy(v) then Trim(v.value) else Placeholder
  }

  /** An `h1` holding only whitespace still wins the chain, because the
      emptiness test comes before the trim: the title is then empty and the
      placeholder is not used. */
  lemma BlankHeadingGivesEmptyTitle(doc: Document)
    requires FirstHeadingText(doc) != "" && AllSpace(FirstHeadingText(doc))
    ensures ResolveTitle(doc) == ""
  {
    TrimEmptyIff(FirstHeadingText(doc));
    var c := TitleCandidates(doc);
    assert Truthy(c[0]);
  }

  // ---------------------------------------------------------------- content

  /** `$(el).text()` of each paragraph, in order. */
  function Texts(ps: seq<Node>): (r: seq<string>)
    ensures |r| == |ps| && forall i :: 0 <= i < |ps| ==> r[i] == TextOf(ps[i])
  {
    seq(|ps|, i requires 0 <= i < |ps| => TextOf(ps[i]))
  }

  /** The trimmed texts of the paragraphs that pass the length filter. */
  function Kept(ps: seq<Node>): (r: seq<string>)
    ensures forall k :: 0 <= k < |r| ==> IsTrimmed(r[k]) && JsLength(r[k]) > MinLength
  {
    KeepTrimmed(Texts(ps), MinLength)
  }

  /** What phase 1 leaves behind: the document as mutated by the removals done
      so far, the paragraphs found under the selector that stopped the loop
      (none if no selector did), and that selector's position. */
  datatype Scan = Scan(doc: Document, paragraphs: seq<Node>, stoppedAt: Option<nat>)

  /** Phase 1 from selector `i` on (index.js:63-76). A selector that matches
      nothing is skipped. One that matches has the noise below its matches
      removed from the document for good; if paragraphs remain below its
      matches, the loop stops there, whether or not any of them is long
      enough. */
  function ScanFrom(doc: Document, sels: seq<Selector>, i: nat): (r: Scan)
    requires i <= |sels|
    ensures r.stoppedAt.None? ==> r.paragraphs == []
    ensures r.stoppedAt.Some? ==> i <= r.stoppedAt.value < |sels| && r.paragraphs != []
    ensures r.stoppedAt.Some? ==> r.paragraphs == Find(r.doc, sels[r.stoppedAt.value], [ParagraphTag], false)
    ensures forall k :: 0 <= k < |r.paragraphs| ==> IsParagraph(r.paragraphs[k])
    decreases |sels| - i
  {
    if i == |sels| then Scan(doc, [], None)
    else
      var sel := sels[i];
      if |Select(doc, sel)| > 0 then
        var pruned := Prune(doc, sel, Noise, false);
        var ps := Find(pruned, sel, [ParagraphTag], false);
        assert forall k :: 0 <= k < |ps| ==> IsParagraph(ps[k]) by {
          forall k | 0 <= k < |ps| ensures IsParagraph(ps[k]) {
            assert MatchesAny([ParagraphTag], ps[k]);
          }
        }
        if |ps| > 0 then Scan(pruned, ps, Some(i)) else ScanFrom(pruned, sels, i + 1)
      else ScanFrom(doc, sels, i + 1)
  }

  /** Phase 1 over the content selectors, in their order. */
  function Phase1(doc: Document): Scan {
    ScanFrom(doc, ContentSelectors, 0)
  }

  /** The result of the extraction's content stage: the final document, the
      paragraphs whose texts were scanned, and whether they came from the
      whole-document fallback. */
  datatype Extraction = Extraction(doc: Document, paragraphs: seq<Node>, usedFallback: bool)

  /** The content string an extraction accumulates. */
  function Content(e: Extraction): string {
    ContentOf(Kept(e.paragraphs))
  }

  /** Phase 1, then the fallback over every `p` of the document as phase 1
      left it (index.js:78-83). */
  function ExtractContent(doc: Document): (e: Extraction)
    ensures e.usedFallback <==> ContentOf(Kept(Phase1(doc).paragraphs)) == ""
    ensures e.doc == Phase1(doc).doc
    ensures forall k :: 0 <= k < |e.paragraphs| ==> IsParagraph(e.paragraphs[k])
    ensures !e.usedFallback ==> e.paragraphs == Phase1(doc).paragraphs
    ensures e.usedFallback ==> forall x :: x in Elements(e.doc) && IsParagraph(x) ==> x in e.paragraphs
    ensures e.usedFallback ==> forall x :: x in e.paragraphs ==> x in Elements(e.doc)
    ensures e.usedFallback ==>
      exists m :: && |m| == |Elements(e.doc)|
                  && (forall i :: 0 <= i < |m| ==> (m[i] <==> IsParagraph(Elements(e.doc)[i])))
                  && e.paragraphs == Pick(Elements(e.doc), m)
  {
    var s := Phase1(doc);
    if ContentOf(Kept(s.paragraphs)) != "" then Extraction(s.doc, s.paragraphs, false)
    else
      var all := Select(s.doc, ParagraphTag);
      SelectFindsAll(s.doc, ParagraphTag);
      assert forall x :: IsParagraph(x) ==> Matches(ParagraphTag, x);
      var es := Elements(s.doc);
      var m := MatchMask(es, ParagraphTag);
      assert forall i :: 0 <= i < |m| ==> (m[i] <==> IsParagraph(es[i]));
      assert all == Pick(es, m);
      Extraction(s.doc, all, true)
  }

  // ------------------------------------------- phase 1 against a reference

  /** The document as selector `i` finds it when no earlier selector stopped
      the loop: each earlier selector that matched has had its noise removed. */
  function DocAt(doc: Document, sels: seq<Selector>, i: nat): Document
    requires i <= |sels|
  {
    if i == 0 then doc else AfterSelector(DocAt(doc, sels, i - 1), sels[i - 1])
  }

  function AfterSelector(d: Document, sel: Selector): Document {
    if |Select(d, sel)| > 0 then Prune(d, sel, Noise, false) else d
  }

  /** `sel` stops the loop on `d`: it matches, and after the removal a
      paragraph lies below one of its matches. */
  predicate Stops(d: Document, sel: Selector) {
    |Select(d, sel)| > 0 && |Find(Prune(d, sel, Noise, false), sel, [ParagraphTag], false)| > 0
  }

  /** Selector `i` stops the loop, reached with the earlier removals done. */
  predicate StopsAt(doc: Document, sels: seq<Selector>, i: nat)
    requires i < |sels|
  {
    Stops(DocAt(doc, sels, i), sels[i])
  }

  /** What the loop's outcome `r` on `doc` should be: stopped at the first
      selector that stops it, with the removals of the selectors before it
      and its own done, or run through every selector. */
  predicate ScanAgrees(doc: Document, sels: seq<Selector>, r: Scan) {
    && (r.stoppedAt.Some? ==>
          var k := r.stoppedAt.value;
          && k < |sels|
          && StopsAt(doc, sels, k)
          && (forall j :: 0 <= j < k ==> !StopsAt(doc, sels, j))
          && r.doc == AfterSelector(DocAt(doc, sels, k), sels[k])
          && r.paragraphs == Find(r.doc, sels[k], [ParagraphTag], false))
    && (r.stoppedAt.None? ==>
          && (forall j :: 0 <= j < |sels| ==> !StopsAt(doc, sels, j))
          && r.doc == DocAt(doc, sels, |sels|))
  }

  /** The loop stops at the first selector whose matches contain a paragraph
      and at no other; the selectors after it are never looked at, so their
      removals never happen; if no selector stops it, every selector has had
      its turn. */
  lemma ScanStopsAtFirst(doc: Document)
    ensures ScanAgrees(doc, ContentSelectors, Phase1(doc))
  {
    ScanAgreesFor(doc, ContentSelectors);
  }

  lemma ScanAgreesFor(doc: Document, sels: seq<Selector>)
    ensures ScanAgrees(doc, sels, ScanFrom(doc, sels, 0))
  {
    var stops, step := StopOf(sels), StepOf(sels);
    var r := ScanFrom(doc, sels, 0);
    ScanIsWalk(doc, sels, 0);
    WalkStopsFirst(doc, |sels|, stops, step);
    forall j | 0 <= j <= |sels| ensures DocAt(doc, sels, j) == StateAt(doc, j, step) {
      DocAtIsStateAt(doc, sels, j);
    }
    assert forall j :: 0 <= j < |sels| ==> (StopsAt(doc, sels, j) <==> stops(StateAt(doc, j, step), j));
  }

  /** Phase 1's stop test and step, as the loop sees them at position `j`. */
  function StopOf(sels: seq<Selector>): (Document, nat) -> bool {
    (d: Document, j: nat) => j < |sels| && Stops(d, sels[j])
  }

  function StepOf(sels: seq<Selector>): (Document, nat) -> Document {
    (d: Document, j: nat) => if j < |sels| then AfterSelector(d, sels[j]) else d
  }

  lemma {:induction false} ScanIsWalk(doc: Document, sels: seq<Selector>, i: nat)
    requires i <= |sels|
    ensures var r := ScanFrom(doc, sels, i);
      var w := Walk(doc, |sels|, i, StopOf(sels), StepOf(sels));
      r.doc == w.state && r.stoppedAt == w.stoppedAt
    decreases |sels| - i
  {
    if i < |sels| {
      var sel := sels[i];
      StepIsAfterSelector(sels, doc, i);
      StopIsStops(sels, doc, i);
      if |Select(doc, sel)| > 0 {
        ScanIsWalk(Prune(doc, sel, Noise, false), sels, i + 1);
      } else {
        ScanIsWalk(doc, sels, i + 1);
      }
    }
  }

  lemma StopIsStops(sels: seq<Selector>, d: Document, j: nat)
    requires j < |sels|
    ensures StopOf(sels)(d, j) == Stops(d, sels[j])
  {
  }

  lemma DocAtIsStateAt(doc: Document, sels: seq<Selector>, i: nat)
    requires i <= |sels|
    ensures DocAt(doc, sels, i) == StateAt(doc, i, StepOf(sels))
  {
    var f := (k: nat) => if k <= |sels| then DocAt(doc, sels, k) else doc;
    forall k | 0 < k <= i ensures f(k) == StepOf(sels)(f(k - 1), k - 1) {
      DocAtSteps(doc, sels, k);
      StepIsAfterSelector(sels, DocAt(doc, sels, k - 1), k - 1);
    }
    StateAtFollows(doc, StepOf(sels), f, i);
  }

  lemma DocAtSteps(doc: Document, sels: seq<Selector>, i: nat)
    requires 0 < i <= |sels|
    ensures DocAt(doc, sels, i) == AfterSelector(DocAt(doc, sels, i - 1), sels[i - 1])
  {
  }

  lemma StepIsAfterSelector(sels: seq<Selector>, d: Document, j: nat)
    requires j < |sels|
    ensures StepOf(sels)(d, j) == AfterSelector(d, sels[j])
  {
  }

  // ------------------------------------------------ properties of content

  /** Whichever phase supplied them, the scanned paragraphs are elements of the
      final document taken in document order. */
  lemma ContentInDocumentOrder(doc: Document)
    ensures var e := ExtractContent(doc); Subsequence(e.paragraphs, Elements(e.doc))
  {
    var e := ExtractContent(doc);
    var s := Phase1(doc);
    if e.usedFallback {
      var es := Elements(e.doc);
      assert Pick(es, MatchMask(es, ParagraphTag)) == e.paragraphs;
    } else {
      ScanStopsAtFirst(doc);
      assert s.paragraphs != [];
      var k := s.stoppedAt.value;
      var m := FindInDocumentOrder(e.doc, ContentSelectors[k], [ParagraphTag], false);
    }
  }

  /** The content of an extraction is the kept texts, each followed by a
      blank line; the kept texts are the trimmed texts of exactly those scanned
      paragraphs whose trimmed text is longer than 40, all of them and in
      order. A paragraph's text is the data of the text nodes below it, joined
      in document order. */
  lemma ContentIsKeptParagraphs(e: Extraction) returns (m: seq<bool>)
    ensures |m| == |e.paragraphs|
    ensures forall i :: 0 <= i < |e.paragraphs| ==>
      (m[i] <==> JsLength(Trim(TextOf(e.paragraphs[i]))) > MinLength)
    ensures Content(e) == ContentOf(TrimAll(Pick(Texts(e.paragraphs), m)))
    ensures forall i :: 0 <= i < |e.paragraphs| ==>
      Texts(e.paragraphs)[i] == TextData(AllNodesOf(e.paragraphs[i]))
  {
    m := KeepTrimmedIsFilter(Texts(e.paragraphs), MinLength);
    forall i | 0 <= i < |e.paragraphs| ensures Texts(e.paragraphs)[i] == TextData(AllNodesOf(e.paragraphs[i])) {
      TextOfIsTextNodes(e.paragraphs[i]);
    }
  }

  // ---------------------------------------------------------------- article

  /** What the HTTP client hands back: a response with its status and the
      parsed body, or a failure (network error, timeout, too many redirects). */
  datatype FetchOutcome = Fetched(status: nat, document: Document) | Unreachable(message: string)

  datatype ExtractError = FetchFailed(message: string) | StatusRejected(status: nat) | NoContent

  datatype Article = Article(title: string, content: string, url: string)

  /** `validateStatus` (index.js:35): responses from 200 up to but excluding 500
      count as answers; anything else makes the request fail. */
  predicate AcceptsStatus(status: int) {
    200 <= status < 500
  }

  /** `extractArticle(url)` given what fetching `url` produced. */
  function ExtractArticle(url: string, fetched: FetchOutcome): (r: Result<Article, ExtractError>)
    ensures r.Success? <==>
      fetched.Fetched? && AcceptsStatus(fetched.status) && Content(ExtractContent(fetched.document)) != ""
    ensures fetched.Unreachable? ==> r == Failure(FetchFailed(fetched.message))
    ensures fetched.Fetched? && !AcceptsStatus(fetched.status) ==> r == Failure(StatusRejected(fetched.status))
    ensures fetched.Fetched? && AcceptsStatus(fetched.status) && r.Failure? ==> r.error == NoContent
    ensures r.Success? ==>
      && r.value.url == url
      && r.value.title == ResolveTitle(fetched.document)
      && r.value.content == Content(ExtractContent(fetched.document))
      && |r.value.content| >= 2 && r.value.content[|r.value.content| - 2..] == Separator
  {
    match fetched
    case Unreachable(m) => Failure(FetchFailed(m))
    case Fetched(status, doc) =>
      if !AcceptsStatus(status) then Failure(StatusRejected(status))
      else
        var title := ResolveTitle(doc);
        var e := ExtractContent(doc);
        var content := Content(e);
        if content == "" then Failure(NoContent)
        else
          ContentShape(Kept(e.paragraphs));
          Success(Article(title, content, url))
  }

  /** Every error `extractArticle` throws is re-thrown with this prefix. */
  const ExtractPrefix: string := "Gagal mengekstrak artikel: "

  /** The text of the error `extractArticle` throws (index.js:85, 90). A
      rejected status is reported with the HTTP client's own wording. */
  function ErrorMessage(e: ExtractError): (msg: string)
    ensures |msg| >= |ExtractPrefix| && msg[..|ExtractPrefix|] == ExtractPrefix
    ensures e.NoContent? ==> msg[|ExtractPrefix|..] == "Gagal mengekstrak konten artikel"
    ensures e.FetchFailed? ==> msg[|ExtractPrefix|..] == e.message
  {
    var detail :=
      match e
      case FetchFailed(m) => m
      case StatusRejected(s) => "Request failed with status code " + DecimalString(s)
      case NoContent => "Gagal mengekstrak konten artikel";
    assert (ExtractPrefix + detail)[|ExtractPrefix|..] == detail;
    ExtractPrefix + detail
  }
}

=== FILE: jstext.dfy ===
/** The JavaScript string semantics the extractor leans on: `String.prototype.trim`,
    `length` counted in UTF-16 code units, substring search (CSS `*=`), whitespace
    separated tokens (CSS `~=`, used by class selectors) and decimal rendering of
    numbers (used for `Date.now()` in file names). */
module JsText {

  /** ECMAScript WhiteSpace and LineTerminator code points: the set `trim()` removes
      and the set a regular expression's `\s` matches. */
  predicate IsSpace(c: char) {
    || c == ' ' || c == '\t' || c == '\n' || c == '\r'
    || c == '\U{000B}' || c == '\U{000C}' || c == '\U{00A0}' || c == '\U{1680}'
    || ('\U{2000}' <= c <= '\U{200A}')
    || c == '\U{2028}' || c == '\U{2029}' || c == '\U{202F}' || c == '\U{205F}'
    || c == '\U{3000}' || c == '\U{FEFF}'
  }

  predicate AllSpace(s: string) {
    forall i :: 0 <= i < |s| ==> IsSpace(s[i])
  }

  /** Neither starts nor ends with whitespace. */
  predicate IsTrimmed(s: string) {
    s == [] || (!IsSpace(s[0]) && !IsSpace(s[|s| - 1]))
  }

  /** `r` sits at offset `i` of `s` with only whitespace on either side of it. */
  predicate SurroundedBySpace(s: string, i: int, r: string) {
    && 0 <= i && i + |r| <= |s|
    && s[i..i + |r|] == r
    && AllSpace(s[..i])
    && AllSpace(s[i + |r|..])
  }

  function TrimStart(s: string): (r: string)
    ensures |r| <= |s|
    ensures r == [] || !IsSpace(r[0])
    decreases |s|
  {
    if s != [] && IsSpace(s[0]) then TrimStart(s[1..]) else s
  }

  function TrimEnd(s: string): (r: string)
    ensures |r| <= |s|
    ensures r == [] || (r[0] == s[0] && !IsSpace(r[|r| - 1]))
    decreases |s|
  {
    if s != [] && IsSpace(s[|s| - 1]) then TrimEnd(s[..|s| - 1]) else s
  }

  /** `String.prototype.trim`. */
  function Trim(s: string): (r: string)
    ensures IsTrimmed(r)
    ensures |r| <= |s|
  {
    TrimEnd(TrimStart(s))
  }

  /** `TrimStart` drops a prefix made only of whitespace. */
  lemma {:induction false} TrimStartDropsSpace(s: string)
    ensures TrimStart(s) == s[|s| - |TrimStart(s)|..]
    ensures AllSpace(s[..|s| - |TrimStart(s)|])
    decreases |s|
  {
    if s != [] && IsSpace(s[0]) {
      TrimStartDropsSpace(s[1..]);
      var n := |s| - |TrimStart(s)|;
      assert s[1..][n - 1..] == s[n..];
      forall k | 0 <= k < n ensures IsSpace(s[..n][k]) {
        if k > 0 { assert s[..n][k] == s[1..][..n - 1][k - 1]; }
      }
    }
  }

  /** `TrimEnd` drops a suffix made only of whitespace. */
  lemma {:induction false} TrimEndDropsSpace(s: string)
    ensures TrimEnd(s) == s[..|TrimEnd(s)|]
    ensures AllSpace(s[|TrimEnd(s)|..])
    decreases |s|
  {
    if s != [] && IsSpace(s[|s| - 1]) {
      var s' := s[..|s| - 1];
      TrimEndDropsSpace(s');
      var n := |TrimEnd(s)|;
      assert s'[..n] == s[..n];
      forall k | n <= k < |s| ensures IsSpace(s[k]) {
        if k < |s| - 1 { assert s[k] == s'[n..][k - n]; }
      }
      assert forall k :: 0 <= k < |s[n..]| ==> s[n..][k] == s[n + k];
    }
  }

  /** What `trim` returns is the middle of `s` once the whitespace on both ends is
      gone: it sits in `s` with only whitespace on either side, and it neither
      starts nor ends with whitespace. These two facts determine it. */
  lemma TrimIsMiddle(s: string) returns (i: nat)
    ensures SurroundedBySpace(s, i, Trim(s)) && IsTrimmed(Trim(s))
  {
    var t := TrimStart(s);
    var r := TrimEnd(t);
    TrimStartDropsSpace(s);
    TrimEndDropsSpace(t);
    i := |s| - |t|;
    assert s[i..][..|r|] == r;
    assert s[i + |r|..] == t[|r|..];
  }

  /** A string already trimmed is left alone, so trimming twice is trimming once. */
  lemma TrimOfTrimmed(s: string)
    requires IsTrimmed(s)
    ensures Trim(s) == s
  {
    assert TrimStart(s) == s;
  }

  /** The trimmed text is empty exactly when the whole string is whitespace. */
  lemma TrimEmptyIff(s: string)
    ensures Trim(s) == [] <==> AllSpace(s)
  {
    var i := TrimIsMiddle(s);
    if Trim(s) == [] {
      forall k | 0 <= k < |s| ensures IsSpace(s[k]) {
        if k < i { assert s[k] == s[..i][k]; } else { assert s[k] == s[i..][k - i]; }
      }
    } else {
      assert s[i] == Trim(s)[0];
    }
  }

  /** Number of UTF-16 code units, which is what JavaScript's `length` counts:
      a code point outside the Basic Multilingual Plane takes two. */
  function JsLength(s: string): (n: nat)
    ensures |s| <= n <= 2 * |s|
  {
    if s == [] then 0
    else (if s[0] as int >= 0x1_0000 then 2 else 1) + JsLength(s[1..])
  }

  /** The length of a concatenation is the sum of the lengths. */
  lemma {:induction false} JsLengthConcat(a: string, b: string)
    ensures JsLength(a + b) == JsLength(a) + JsLength(b)
  {
    if a != [] {
      assert (a + b)[1..] == a[1..] + b;
      JsLengthConcat(a[1..], b);
    } else {
      assert a + b == b;
    }
  }

  /** Appending a character adds two code units when it lies outside the
      Basic Multilingual Plane and one otherwise; with `JsLength("") == 0` this
      fixes `length` on every string. */
  lemma JsLengthAppend(s: string, c: char)
    ensures JsLength("") == 0
    ensures JsLength(s + [c]) == JsLength(s) + (if c as int >= 0x1_0000 then 2 else 1)
  {
    JsLengthConcat(s, [c]);
    assert [c][1..] == [];
  }

  predicate InBasicPlane(s: string) {
    forall i :: 0 <= i < |s| ==> s[i] as int < 0x1_0000
  }

  /** For text made only of Basic Multilingual Plane characters, JavaScript's
      length is the number of characters. */
  lemma {:induction false} JsLengthInBasicPlane(s: string)
    requires InBasicPlane(s)
    ensures JsLength(s) == |s|
  {
    if s != [] {
      assert InBasicPlane(s[1..]) by {
        forall i | 0 <= i < |s[1..]| ensures s[1..][i] as int < 0x1_0000 {
          assert s[1..][i] == s[i + 1];
        }
      }
      JsLengthInBasicPlane(s[1..]);
    }
  }

  predicate OccursAt(hay: string, needle: string, i: int) {
    0 <= i && i + |needle| <= |hay| && hay[i..i + |needle|] == needle
  }

  /** `hay.includes(needle)`. */
  predicate Contains(hay: string, needle: string) {
    exists i | 0 <= i <= |hay| - |needle| :: OccursAt(hay, needle, i)
  }

  /** CSS `[attr~=tok]`: `tok` occurs in `attr` delimited on each side by the
      start or end of the value or by whitespace. */
  predicate HasToken(attr: string, tok: string) {
    exists i | 0 <= i <= |attr| - |tok| ::
      && OccursAt(attr, tok, i)
      && (i == 0 || IsSpace(attr[i - 1]))
      && (i + |tok| == |attr| || IsSpace(attr[i + |tok|]))
  }

  predicate IsDigit(c: char) {
    '0' <= c <= '9'
  }

  function DigitChar(d: nat): (c: char)
    requires d < 10
    ensures IsDigit(c) && (c as int) - ('0' as int) == d
  {
    ['0', '1', '2', '3', '4', '5', '6', '7', '8', '9'][d]
  }

  /** The decimal numeral JavaScript writes for a non-negative integer. */
  function DecimalString(n: nat): (s: string)
    ensures |s| >= 1
    ensures forall i :: 0 <= i < |s| ==> IsDigit(s[i])
    ensures s[0] == '0' ==> n == 0
    decreases n
  {
    if n < 10 then [DigitChar(n)] else DecimalString(n / 10) + [DigitChar(n % 10)]
  }

  /** Reads a run of decimal digits back as a number. */
  function DecimalValue(s: string): nat
    requires forall i :: 0 <= i < |s| ==> IsDigit(s[i])
  {
    if s == [] then 0
    else
      var d := (s[|s| - 1] as int) - ('0' as int);
      assert IsDigit(s[|s| - 1]);
      10 * DecimalValue(s[..|s| - 1]) + d
  }

  /** The numeral reads back as the number it was written for, so distinct times
      give distinct numerals. */
  lemma {:induction false} DecimalRoundTrip(n: nat)
    ensures DecimalValue(DecimalString(n)) == n
    decreases n
  {
    var s := DecimalString(n);
    if n >= 10 {
      DecimalRoundTrip(n / 10);
      assert s[..|s| - 1] == DecimalString(n / 10);
    }
  }
}

=== FILE: paragraphs.dfy ===
/** The content string's format. The extractor builds it by appending each kept
    paragraph followed by a blank line (index.js:71, 81); the renderers take it
    apart again with `content.split('\n\n')` (index.js:101, 137, 186). */
module Paragraphs {
  import opened JsText
  import opened Seqs

  const Separator: string := "\n\n"

  /** `s` holds the separator somewhere. */
  predicate HasBlankLine(s: string) {
    exists i | 0 <= i < |s| - 1 :: s[i] == '\n' && s[i + 1] == '\n'
  }

  predicate EndsWithNewline(s: string) {
    s != [] && s[|s| - 1] == '\n'
  }

  /** `parts.join('\n\n')`. */
  function JoinSep(parts: seq<string>): string
    requires |parts| >= 1
  {
    if |parts| == 1 then parts[0] else parts[0] + Separator + JoinSep(parts[1..])
  }

  /** What JavaScript's left-to-right split on the separator produces: the parts
      join back to `s`, none holds the separator, and none but the last ends in a
      newline (otherwise the separator would have been found one place earlier). */
  predicate IsSplitOf(parts: seq<string>, s: string) {
    && |parts| >= 1
    && JoinSep(parts) == s
    && (forall k :: 0 <= k < |parts| ==> !HasBlankLine(parts[k]))
    && (forall k :: 0 <= k < |parts| - 1 ==> !EndsWithNewline(parts[k]))
  }

  /** `s.split('\n\n')`: the string is scanned from the left and cut at each
      separator found, the two newlines dropped. */
  function Split(s: string): (r: seq<string>)
    ensures IsSplitOf(r, s)
    ensures |r[0]| <= |s| && r[0] == s[..|r[0]|]
    decreases |s|
  {
    if |s| >= 2 && s[0] == '\n' && s[1] == '\n' then
      var rest := Split(s[2..]);
      assert s == "" + Separator + JoinSep(rest);
      [""] + rest
    else if s == [] then
      [""]
    else
      var rest := Split(s[1..]);
      SplitCons(s, rest);
      [[s[0]] + rest[0]] + rest[1..]
  }

  /** The split of `s` when it does not open with the separator: its first
      character joins the first part of the split of the remainder. */
  lemma SplitCons(s: string, rest: seq<string>)
    requires s != [] && !(|s| >= 2 && s[0] == '\n' && s[1] == '\n')
    requires IsSplitOf(rest, s[1..]) && |rest[0]| <= |s| - 1 && rest[0] == s[1..][..|rest[0]|]
    ensures IsSplitOf([[s[0]] + rest[0]] + rest[1..], s)
    ensures |rest[0]| + 1 <= |s| && [s[0]] + rest[0] == s[..|rest[0]| + 1]
  {
    var head := [s[0]] + rest[0];
    var r := [head] + rest[1..];
    assert !HasBlankLine(head) by {
      forall i | 0 <= i < |head| - 1 ensures !(head[i] == '\n' && head[i + 1] == '\n') {
        if i == 0 {
          assert head[1] == s[1];
        } else {
          assert head[i] == rest[0][i - 1] && head[i + 1] == rest[0][i];
        }
      }
    }
    assert |rest| >= 2 ==> !EndsWithNewline(head) by {
      if |rest| >= 2 && rest[0] == [] {
        assert s[1..] == "" + Separator + JoinSep(rest[1..]);
        assert s[1] == '\n';
      }
    }
    forall k | 0 <= k < |r| ensures !HasBlankLine(r[k]) {
      if k > 0 { assert r[k] == rest[k]; }
    }
    forall k | 0 <= k < |r| - 1 ensures !EndsWithNewline(r[k]) {
      if k > 0 { assert r[k] == rest[k]; }
    }
    assert JoinSep(r) == s by {
      assert s == [s[0]] + s[1..];
      if |rest| > 1 {
        assert r[1..] == rest[1..];
      }
    }
  }

  /** A string without the separator splits into itself alone. */
  lemma {:induction false} SplitWithoutSeparator(s: string)
    requires !HasBlankLine(s)
    ensures Split(s) == [s]
    decreases |s|
  {
    if s != [] {
      assert !HasBlankLine(s[1..]) by {
        forall i | 0 <= i < |s[1..]| - 1 ensures !(s[1..][i] == '\n' && s[1..][i + 1] == '\n') {
          assert s[1..][i] == s[i + 1] && s[1..][i + 1] == s[i + 2];
        }
      }
      SplitWithoutSeparator(s[1..]);
      assert [s[0]] + s[1..] == s;
    }
  }

  /** The split is the only decomposition with the split's shape: whatever parts
      join to `s` without holding the separator, and without a newline at the end
      of any but the last, are exactly what `s.split('\n\n')` returns. Joining
      such parts and splitting again therefore gives the same parts back. */
  lemma {:induction false} SplitUnique(parts: seq<string>, s: string)
    requires IsSplitOf(parts, s)
    ensures Split(s) == parts
    decreases |s|
  {
    if |parts| == 1 {
      SplitWithoutSeparator(s);
    } else {
      var p := parts[0];
      var rest := parts[1..];
      SplitOfRest(parts, s);
      if p == [] {
        assert s[..2] == Separator && s[2..] == JoinSep(rest);
        assert s[0] == '\n' && s[1] == '\n';
        SplitUnique(rest, s[2..]);
        assert Split(s) == [""] + Split(s[2..]);
        assert parts == [""] + rest;
      } else {
        var tail := [p[1..]] + rest;
        SplitOfTail(parts, s);
        SplitUnique(tail, s[1..]);
        assert Split(s) == [[s[0]] + tail[0]] + tail[1..];
        assert [s[0]] + p[1..] == p;
        assert tail[1..] == rest;
        assert parts == [p] + rest;
      }
    }
  }

  /** A split with more than one part is its first part, the separator, and a
      split of the rest. */
  lemma SplitOfRest(parts: seq<string>, s: string)
    requires IsSplitOf(parts, s) && |parts| > 1
    ensures s == parts[0] + Separator + JoinSep(parts[1..])
    ensures IsSplitOf(parts[1..], JoinSep(parts[1..]))
  {
    var rest := parts[1..];
    forall k | 0 <= k < |rest| ensures !HasBlankLine(rest[k]) {
      assert rest[k] == parts[k + 1];
    }
    forall k | 0 <= k < |rest| - 1 ensures !EndsWithNewline(rest[k]) {
      assert rest[k] == parts[k + 1];
    }
  }

  /** Dropping the first character of a split whose first part is not empty
      leaves a split of the rest of the string, and the string does not open
      with the separator. */
  lemma SplitOfTail(parts: seq<string>, s: string)
    requires IsSplitOf(parts, s) && |parts| > 1 && parts[0] != []
    ensures IsSplitOf([parts[0][1..]] + parts[1..], s[1..])
    ensures s[0] == parts[0][0] && !(|s| >= 2 && s[0] == '\n' && s[1] == '\n')
  {
    var p := parts[0];
    var rest := parts[1..];
    var tail := [p[1..]] + rest;
    assert s == p + Separator + JoinSep(rest);
    assert tail[1..] == rest;
    assert JoinSep(tail) == s[1..] by {
      assert s == [p[0]] + (p[1..] + Separator + JoinSep(rest));
    }
    assert !HasBlankLine(p[1..]) by {
      forall i | 0 <= i < |p[1..]| - 1 ensures !(p[1..][i] == '\n' && p[1..][i + 1] == '\n') {
        assert p[1..][i] == p[i + 1] && p[1..][i + 1] == p[i + 2];
      }
    }
    forall k | 0 <= k < |tail| ensures !HasBlankLine(tail[k]) {
      if k > 0 { assert tail[k] == parts[k]; }
    }
    forall k | 0 <= k < |tail| - 1 ensures !EndsWithNewline(tail[k]) {
      if k > 0 {
        assert tail[k] == parts[k];
      } else if p[1..] != [] {
        assert p[1..][|p[1..]| - 1] == p[|p| - 1];
      }
    }
    if |p| >= 2 {
      assert s[1] == p[1];
      assert !(p[0] == '\n' && p[1] == '\n');
    } else {
      assert !EndsWithNewline(parts[0]);
    }
  }

  /** The extractor's content string: each kept text followed by a blank line,
      the form `content += text + '\n\n'` accumulates. */
  function ContentOf(texts: seq<string>): string
  {
    if texts == [] then "" else texts[0] + Separator + ContentOf(texts[1..])
  }

  /** The content string is the kept texts joined with the separator, with an
      empty part after the last one. */
  lemma {:induction false} ContentIsJoin(texts: seq<string>)
    ensures ContentOf(texts) == JoinSep(texts + [""])
  {
    if texts != [] {
      ContentIsJoin(texts[1..]);
      assert (texts + [""])[1..] == texts[1..] + [""];
    }
  }

  /** Content is empty exactly when nothing was kept; otherwise it ends with the
      separator. */
  lemma ContentShape(texts: seq<string>)
    ensures ContentOf(texts) == "" <==> texts == []
    ensures texts != [] ==> |ContentOf(texts)| >= 2 && ContentOf(texts)[|ContentOf(texts)| - 2..] == Separator
  {
    if texts != [] {
      ContentIsJoin(texts);
      var c := ContentOf(texts);
      assert |c| >= 2;
      EndsWithSeparator(texts);
    }
  }

  lemma {:induction false} EndsWithSeparator(texts: seq<string>)
    requires texts != []
    ensures |ContentOf(texts)| >= 2 && ContentOf(texts)[|ContentOf(texts)| - 2..] == Separator
  {
    if texts[1..] != [] {
      EndsWithSeparator(texts[1..]);
      var c := ContentOf(texts);
      var t := ContentOf(texts[1..]);
      assert c == (texts[0] + Separator) + t;
      assert c[|c| - 2..] == t[|t| - 2..];
    } else {
      assert ContentOf(texts) == texts[0] + Separator;
    }
  }

  /** Splitting the content recovers the kept texts, plus the empty part after
      the final separator, provided no text holds the separator itself and none
      ends in a newline. */
  lemma ContentRoundTrip(texts: seq<string>)
    requires forall k :: 0 <= k < |texts| ==> !HasBlankLine(texts[k]) && !EndsWithNewline(texts[k])
    ensures Split(ContentOf(texts)) == texts + [""]
  {
    ContentIsJoin(texts);
    var parts := texts + [""];
    assert IsSplitOf(parts, ContentOf(texts)) by {
      forall k | 0 <= k < |parts| ensures !HasBlankLine(parts[k]) {
        if k < |texts| { assert parts[k] == texts[k]; }
      }
    }
    SplitUnique(parts, ContentOf(texts));
  }

  /** `texts.map(t => t.trim())`. */
  function TrimAll(texts: seq<string>): (r: seq<string>)
    ensures |r| == |texts| && forall i :: 0 <= i < |texts| ==> r[i] == Trim(texts[i])
  {
    seq(|texts|, i requires 0 <= i < |texts| => Trim(texts[i]))
  }

  /** The filter both the extractor and the DOCX renderer apply: each text is
      trimmed and kept when the trimmed text is longer than `min` (JavaScript
      length). With `min` 40 this is `if (text.length > 40)` (index.js:71, 81);
      with `min` 0 it is the truthiness test `if (para.trim())` (index.js:102). */
  function KeepTrimmed(texts: seq<string>, min: nat): (r: seq<string>)
    ensures |r| <= |texts|
    ensures forall k :: 0 <= k < |r| ==> IsTrimmed(r[k]) && JsLength(r[k]) > min
  {
    if texts == [] then []
    else
      var t := Trim(texts[0]);
      (if JsLength(t) > min then [t] else []) + KeepTrimmed(texts[1..], min)
  }

  /** The texts kept are exactly the trimmed forms of the texts that pass the
      length test, all of them and in their original order. */
  lemma {:induction false} KeepTrimmedIsFilter(texts: seq<string>, min: nat) returns (m: seq<bool>)
    ensures |m| == |texts|
    ensures forall i :: 0 <= i < |texts| ==> (m[i] <==> JsLength(Trim(texts[i])) > min)
    ensures KeepTrimmed(texts, min) == TrimAll(Pick(texts, m))
  {
    if texts == [] {
      m := [];
    } else {
      var m' := KeepTrimmedIsFilter(texts[1..], min);
      var keep := JsLength(Trim(texts[0])) > min;
      m := [keep] + m';
      assert m[1..] == m';
      var head := if keep then [texts[0]] else [];
      var picked := Pick(texts[1..], m');
      assert Pick(texts, m) == head + picked;
      TrimAllConcat(head, picked);
      assert TrimAll(head) == (if keep then [Trim(texts[0])] else []);
    }
  }

  lemma {:induction false} KeepTrimmedConcat(a: seq<string>, b: seq<string>, min: nat)
    ensures KeepTrimmed(a + b, min) == KeepTrimmed(a, min) + KeepTrimmed(b, min)
  {
    if a != [] {
      var ab := a + b;
      assert ab[0] == a[0] && ab[1..] == a[1..] + b;
      KeepTrimmedConcat(a[1..], b, min);
      var head := if JsLength(Trim(a[0])) > min then [Trim(a[0])] else [];
      assert KeepTrimmed(ab, min) == head + KeepTrimmed(ab[1..], min);
      assert KeepTrimmed(a, min) == head + KeepTrimmed(a[1..], min);
    } else {
      assert a + b == b;
    }
  }

  lemma TrimAllConcat(a: seq<string>, b: seq<string>)
    ensures TrimAll(a + b) == TrimAll(a) + TrimAll(b)
  {
    assert forall i :: 0 <= i < |a + b| ==> TrimAll(a + b)[i] == (TrimAll(a) + TrimAll(b))[i];
  }

  /** Texts that are already trimmed and long enough pass through the filter
      unchanged. */
  lemma {:induction false} KeepTrimmedOfKept(texts: seq<string>, min: nat)
    requires forall k :: 0 <= k < |texts| ==> IsTrimmed(texts[k]) && JsLength(texts[k]) > min
    ensures KeepTrimmed(texts, min) == texts
  {
    if texts != [] {
      var t := texts[0];
      TrimOfTrimmed(t);
      assert JsLength(Trim(t)) > min;
      var rest := texts[1..];
      assert forall k :: 0 <= k < |rest| ==> rest[k] == texts[k + 1];
      KeepTrimmedOfKept(rest, min);
      assert KeepTrimmed(texts, min) == [t] + KeepTrimmed(rest, min);
      assert [t] + rest == texts;
    }
  }
}

=== FILE: results.dfy ===
/** Option and Result, the failure-carrying values the rest of the model returns
    in place of JavaScript's `undefined` and thrown errors. */
module Results {

  /** `None` stands for JavaScript's `undefined`. */
  datatype Option<+T> = None | Some(value: T)

  /** `Failure` stands for a thrown error; its payload says which one. */
  datatype Result<+R, +E> = Success(value: R) | Failure(error: E)

  /** JavaScript truthiness of a value that is a string or `undefined`: the empty
      string is falsy like `undefined`; every other string is truthy. */
  predicate Truthy(v: Option<string>) {
    v.Some? && v.value != ""
  }
}

=== FILE: routes.dfy ===
/** The two POST endpoints (index.js:197-225): request fields are checked for
    JavaScript truthiness, then the extractor or one of the renderers runs, and
    the outcome becomes a JSON reply or a file download. */
module Routes {
  import opened Results
  import opened JsText
  import opened Paragraphs
  import opened Extractor
  import opened Export
  import opened Dom
  import opened Escaping

  /** What the server answers: a 400 or 500 JSON error, the extracted article
      as JSON, or a file to download. */
  datatype Reply =
    | BadRequest(error: string)
    | ServerError(error: string)
    | ArticleData(article: Article)
    | Download(file: ExportFile)

  function StatusCode(r: Reply): nat {
    match r
    case BadRequest(_) => 400
    case ServerError(_) => 500
    case _ => 200
  }

  const MissingUrl: string := "URL tidak boleh kosong"
  const MissingData: string := "Data tidak lengkap"
  const PdfPrefix: string := "Gagal membuat PDF: "

  /** `POST /api/extract-article` with body field `url`; `fetched` is what
      fetching that URL produced, consulted only when the URL is truthy. */
  function ExtractRoute(url: Option<string>, fetched: FetchOutcome): (r: Reply)
    ensures StatusCode(r) == 400 <==> !Truthy(url)
    ensures r.BadRequest? ==> r.error == MissingUrl
    ensures r.ArticleData? <==> Truthy(url) && ExtractArticle(url.value, fetched).Success?
    ensures r.ArticleData? ==> r.article == ExtractArticle(url.value, fetched).value
    ensures r.ArticleData? ==>
      && r.article.url == url.value
      && r.article.title == ResolveTitle(fetched.document)
      && r.article.content != ""
    ensures StatusCode(r) == 500 <==> Truthy(url) && ExtractArticle(url.value, fetched).Failure?
    ensures Truthy(url) && ExtractArticle(url.value, fetched).Failure? ==>
      r == ServerError(ErrorMessage(ExtractArticle(url.value, fetched).error))
    ensures r.ServerError? ==>
      |r.error| >= |ExtractPrefix| && r.error[..|ExtractPrefix|] == ExtractPrefix
  {
    if !Truthy(url) then BadRequest(MissingUrl)
    else
      match ExtractArticle(url.value, fetched)
      case Success(a) => ArticleData(a)
      case Failure(e) =>
        ServerError(ErrorMessage(e))
  }

  /** The file a renderer produces for the format asked for. */
  function Render(f: Format, title: string, content: string, now: nat): (file: ExportFile)
    ensures file.filename == FileName(f, now)
    ensures file.document.DocxDocument? <==> f == Docx
    ensures file.document.PdfPage? <==> f == Pdf
    ensures f == Docx ==>
      file.document.title.text == title && file.document.paragraphs == DocxParagraphs(content)
    ensures f == Pdf ==>
      Unescape(file.document.heading) == title && file.document.body == PdfBody(content)
    ensures f == Html ==>
      file.document.heading == title && file.document.body == ParagraphMarkup(TrimAll(Split(content)))
  {
    match f
    case Docx => CreateDocx(title, content, now)
    case Pdf => CreatePdf(title, content, now)
    case Html => CreateHtml(title, content, now)
  }

  /** `POST /api/download-article` with body fields `title`, `content` and
      `format`. `now` is the clock reading used in the file name; `failure` is
      the message of an error the renderer's library or the file system threw,
      if any. */
  function DownloadRoute(title: Option<string>, content: Option<string>, format: Option<string>,
                         now: nat, failure: Option<string>): (r: Reply)
    ensures r.BadRequest? <==> !(Truthy(title) && Truthy(content) && Truthy(format))
    ensures r.BadRequest? ==> r.error == MissingData
    ensures r.Download? <==> Truthy(title) && Truthy(content) && Truthy(format) && failure.None?
    ensures r.ServerError? <==> Truthy(title) && Truthy(content) && Truthy(format) && failure.Some?
    ensures StatusCode(r) == 500 <==> r.ServerError?
    ensures r.Download? ==>
      && r.file.filename == FileName(FormatOf(format.value), now)
      && (r.file.document.DocxDocument? <==> format.value == "docx")
      && (r.file.document.PdfPage? <==> format.value == "pdf")
      && (r.file.document.HtmlPage? <==> format.value != "docx" && format.value != "pdf")
    ensures r.Download? ==> r.file == Render(FormatOf(format.value), title.value, content.value, now)
    ensures r.ServerError? ==>
      format.value == "pdf" ==> r.error == PdfPrefix + failure.value
    ensures r.ServerError? ==>
      format.value != "pdf" ==> r.error == failure.value
  {
    if !Truthy(title) || !Truthy(content) || !Truthy(format) then BadRequest(MissingData)
    else
      var f := FormatOf(format.value);
      match failure
      case Some(m) => ServerError(if f == Pdf then PdfPrefix + m else m)
      case None => Download(Render(f, title.value, content.value, now))
  }

  /** The article's paragraphs survive the round trip through the DOCX
      download: the content of an extraction, sent back with a non-empty title
      as a DOCX request, yields a document whose paragraphs are the kept
      paragraph texts, all of them and in order, as long as none of them holds
      a blank line. When the content is empty, as for an extraction that
      failed, the request is refused instead. */
  lemma ExtractedContentToDocx(e: Extraction, title: string, now: nat)
    requires title != ""
    requires forall k :: 0 <= k < |Kept(e.paragraphs)| ==> !HasBlankLine(Kept(e.paragraphs)[k])
    ensures var r := DownloadRoute(Some(title), Some(Content(e)), Some("docx"), now, None);
      && (Content(e) == "" ==> r == BadRequest(MissingData))
      && (Content(e) != "" ==>
            && r.Download?
            && r.file.document.DocxDocument?
            && r.file.document.title.text == title
            && r.file.document.paragraphs == Kept(e.paragraphs))
  {
    var ks := Kept(e.paragraphs);
    forall k | 0 <= k < |ks| ensures ks[k] != "" && IsTrimmed(ks[k]) && !HasBlankLine(ks[k]) {
      assert JsLength(ks[k]) > MinLength;
    }
    DocxOfContent(ks);
    var content := Content(e);
    assert content == ContentOf(ks);
    var r := DownloadRoute(Some(title), Some(content), Some("docx"), now, None);
    if content != "" {
      assert Truthy(Some(content)) && Truthy(Some("docx"));
      assert r == Download(CreateDocx(title, content, now));
    }
  }

  /** A page whose first `h1` is only whitespace gives an empty title, and the
      download endpoint refuses an article with that title, whatever its
      content and format. */
  lemma BlankHeadingBlocksDownload(doc: Document, content: Option<string>, format: Option<string>,
                                   now: nat, failure: Option<string>)
    requires FirstHeadingText(doc) != "" && AllSpace(FirstHeadingText(doc))
    ensures DownloadRoute(Some(ResolveTitle(doc)), content, format, now, failure) == BadRequest(MissingData)
  {
    BlankHeadingGivesEmptyTitle(doc);
  }
}

=== FILE: seqs.dfy ===
/** Order-preserving selection from a sequence. A query that walks a document and
    keeps some of its elements returns them in document order exactly when its
    result is `Pick(elements, mask)` for some mask over the elements. */
module Seqs {

  /** The elements of `s` whose mask bit is set, in their original order. */
  function Pick<T>(s: seq<T>, mask: seq<bool>): (r: seq<T>)
    requires |mask| == |s|
    ensures |r| <= |s|
    ensures forall k :: 0 <= k < |r| ==> exists i :: 0 <= i < |s| && mask[i] && r[k] == s[i]
  {
    if s == [] then []
    else
      var head := if mask[0] then [s[0]] else [];
      var tail := Pick(s[1..], mask[1..]);
      var r := head + tail;
      forall k | 0 <= k < |r| ensures exists i :: 0 <= i < |s| && mask[i] && r[k] == s[i] {
        if k < |head| {
          assert mask[0] && r[k] == s[0];
        } else {
          var k' := k - |head|;
          assert r[k] == tail[k'];
          var j :| 0 <= j < |s[1..]| && mask[1..][j] && tail[k'] == s[1..][j];
          assert mask[j + 1] && r[k] == s[j + 1];
        }
      }
      r
  }

  /** `a` is `b` with some elements left out and the rest in the same order. */
  ghost predicate Subsequence<T>(a: seq<T>, b: seq<T>) {
    exists mask: seq<bool> :: |mask| == |b| && Pick(b, mask) == a
  }

  /** Picking from a concatenation picks from each half. */
  lemma {:induction false} PickConcat<T>(a: seq<T>, ma: seq<bool>, b: seq<T>, mb: seq<bool>)
    requires |ma| == |a| && |mb| == |b|
    ensures Pick(a + b, ma + mb) == Pick(a, ma) + Pick(b, mb)
  {
    if a != [] {
      assert (a + b)[1..] == a[1..] + b;
      assert (ma + mb)[1..] == ma[1..] + mb;
      PickConcat(a[1..], ma[1..], b, mb);
    } else {
      assert a + b == b && ma + mb == mb;
    }
  }

  /** An all-false mask picks nothing. */
  lemma {:induction false} PickNone<T>(s: seq<T>, mask: seq<bool>)
    requires |mask| == |s|
    requires forall i :: 0 <= i < |s| ==> !mask[i]
    ensures Pick(s, mask) == []
  {
    if s != [] {
      PickNone(s[1..], mask[1..]);
    }
  }

  /** A set mask bit puts its element in the result. */
  lemma {:induction false} PickKeeps<T>(s: seq<T>, mask: seq<bool>, i: int)
    requires |mask| == |s| && 0 <= i < |s| && mask[i]
    ensures s[i] in Pick(s, mask)
  {
    if i > 0 {
      PickKeeps(s[1..], mask[1..], i - 1);
    }
  }

  /** The first set mask bit gives the first element of the result. */
  lemma {:induction false} PickFirst<T>(s: seq<T>, mask: seq<bool>, i: int)
    requires |mask| == |s| && 0 <= i < |s| && mask[i]
    requires forall j :: 0 <= j < i ==> !mask[j]
    ensures Pick(s, mask) != [] && Pick(s, mask)[0] == s[i]
  {
    if i > 0 {
      PickFirst(s[1..], mask[1..], i - 1);
    }
  }

  /** A slice inside the first part of a concatenation. */
  lemma SliceOfPrefix<T>(a: seq<T>, b: seq<T>, lo: int, hi: int)
    requires 0 <= lo <= hi <= |a|
    ensures (a + b)[lo..hi] == a[lo..hi]
    ensures lo < |a| ==> (a + b)[lo] == a[lo]
  {
  }

  /** A slice inside the second part of a concatenation. */
  lemma SliceOfSuffix<T>(a: seq<T>, b: seq<T>, lo: int, hi: int)
    requires 0 <= lo <= hi <= |b|
    ensures (a + b)[|a| + lo..|a| + hi] == b[lo..hi]
    ensures lo < |b| ==> (a + b)[|a| + lo] == b[lo]
  {
  }
}

=== FILE: walks.dfy ===
/** A loop over positions `i` up to `n - 1` that carries a state along and may
    stop early: at each position it either stops, after one last step, or
    steps and moves on. The content scan of the extractor is such a loop; its
    properties are proved here once, for any stop test and any step. */
module Walks {
  import opened Results

  datatype Outcome<S> = Outcome(state: S, stoppedAt: Option<nat>)

  function Walk<S>(s: S, n: nat, i: nat, stops: (S, nat) -> bool, step: (S, nat) -> S): (r: Outcome<S>)
    requires i <= n
    ensures r.stoppedAt.Some? ==> i <= r.stoppedAt.value < n
    decreases n - i
  {
    if i == n then Outcome(s, None)
    else if stops(s, i) then Outcome(step(s, i), Some(i))
    else Walk(step(s, i), n, i + 1, stops, step)
  }

  /** The state position `i` is reached with when no earlier position stopped
      the loop. */
  function StateAt<S>(s0: S, i: nat, step: (S, nat) -> S): S {
    if i == 0 then s0 else step(StateAt(s0, i - 1, step), i - 1)
  }

  /** A sequence of states that starts at `s0` and moves by `step` at each
      position is the walk's sequence of states. */
  lemma {:induction false} StateAtFollows<S>(s0: S, step: (S, nat) -> S, f: nat -> S, i: nat)
    requires f(0) == s0
    requires forall k :: 0 < k <= i ==> f(k) == step(f(k - 1), k - 1)
    ensures f(i) == StateAt(s0, i, step)
  {
    if i > 0 {
      StateAtFollows(s0, step, f, i - 1);
    }
  }

  /** The loop stops at the first position whose stop test holds on the state
      it is reached with, and ends with that position's step applied; when no
      position's test holds it runs to the end. */
  predicate StopsFirst<S(==)>(s0: S, n: nat, stops: (S, nat) -> bool, step: (S, nat) -> S, r: Outcome<S>) {
    && (r.stoppedAt.Some? ==>
          var k := r.stoppedAt.value;
          && k < n
          && stops(StateAt(s0, k, step), k)
          && (forall j :: 0 <= j < k ==> !stops(StateAt(s0, j, step), j))
          && r.state == step(StateAt(s0, k, step), k))
    && (r.stoppedAt.None? ==>
          && (forall j :: 0 <= j < n ==> !stops(StateAt(s0, j, step), j))
          && r.state == StateAt(s0, n, step))
  }

  lemma WalkStopsFirst<S>(s0: S, n: nat, stops: (S, nat) -> bool, step: (S, nat) -> S)
    ensures StopsFirst(s0, n, stops, step, Walk(s0, n, 0, stops, step))
  {
    WalkFrom(s0, n, 0, stops, step);
  }

  lemma {:induction false} WalkFrom<S>(s0: S, n: nat, i: nat, stops: (S, nat) -> bool, step: (S, nat) -> S)
    requires i <= n
    requires forall j :: 0 <= j < i ==> !stops(StateAt(s0, j, step), j)
    ensures StopsFirst(s0, n, stops, step, Walk(StateAt(s0, i, step), n, i, stops, step))
    decreases n - i
  {
    if i < n && !stops(StateAt(s0, i, step), i) {
      assert StateAt(s0, i + 1, step) == step(StateAt(s0, i, step), i);
      WalkFrom(s0, n, i + 1, stops, step);
    }
  }
}
